=== FILE: README.md ===
# Car mod kit renumbering, modelled in Dafny

`main.py` is a small tool for GTA V vehicle mods. It walks a folder and collects
every `carcols.meta` file and every `vehicles.meta` file. It then gives every mod
kit in every carcols file a fresh number, counting from 2000 with one counter
shared by all files. A number goes to each distinct `<id value="N"` and to each
distinct `<kitName>N_suffix</kitName>`. The tool rewrites the files with the new
numbers and records one summary entry per number handed out. Each entry names the car
model taken from the `<modelName>` of the first vehicles file, in walk order, whose path
starts with the carcols file's directory.

This project models that core as pure functions and proves the properties below:

- `Paths` covers `find_meta_files`: classification by file-name suffix, and
  `os.path.join`/`os.path.dirname` on POSIX paths. It also covers the vehicles
  lookup, which is a string-prefix test on the directory.
- `Extract` covers the three regular expressions as hand-written scanners with
  declarative specifications:
  - `<id value="(\d+)"` as a set;
  - `<kitName>(\d+)(_[\w]+)</kitName>` as a set of (digits, suffix) pairs;
  - the first lazy `<modelName>(.*?)</modelName>`.
- `Rewrite` covers the two substitutions: the replace-all of one literal id text
  (`re.sub` without a count), and the replace-first of the leftmost kitName element
  with a given suffix (`re.sub` with `count=1`).
- `Renumber` covers the fold over the carcols files, which carries the counter,
  the file contents and the summary entries, and `rebuild_car_mod_kit_ids` as a whole.
- `Text` and `Wrappers` hold shared helpers: character classes, decimal numerals,
  `Option` and `Result`.

The model makes these choices:

- The file system is a `map<Path, string>`. The walk is a sequence of (directory,
  file name) entries in the order `os.walk` yields them.
- Python iterates a set in an order that depends on string hashing. Each file's
  iteration order is therefore a parameter (`FileOrder`), and every property holds
  for every order.
- Opening a file that does not exist raises in the program. The model returns
  `Failure(MissingFile(path, files))`, where `files` holds the files as they stood,
  with earlier files already rewritten.
- The vehicles file is looked up before the carcols file is read, as in the code.

Two facts about the code shape the model:

- A file's kitName numbers are handed out only after all of its ids
  (`main.py:51-62`). A kitName does not share the number of the id beside it: in a
  file with one id and one kitName, the id gets 2000 and the kitName 2001.
- Opening a vehicles file that does not exist raises at `main.py:29`, and the run
  stops. It does not fall back to "Unknown".

## Model

The functions that compute the text updates have no rows of their own. These are
`Rewrite.ReplaceAll` (`main.py:52`), `Renumber.RewriteIds` (`main.py:51-52`),
`Renumber.RewriteKits` (`main.py:57-61`) and `Renumber.RewriteFile` (`main.py:51-61`).
Their behaviour is stated by the rows of the lemmas about them: `ReplaceAllIsSplitJoin`,
`IdPassRemovesOriginals`, `KitPassSameSuffix` and `RunRewritesEachFileOnce`.

| member | source | states |
|---|---|---|
| Paths.Join | main.py:23 | The joined path ends with the file name and, for a name not starting with `/`, starts with the directory. |
| Paths.Dirname | main.py:40 | The directory part is a prefix of the path. |
| Paths.DirnameOfJoin | main.py:40 | Taking the directory of a path joined from a non-empty directory not ending in `/` and a plain file name gives that directory back. (For `mods/` the directory comes back as `mods`.) |
| Paths.SuffixesExclusive | main.py:22-24 | No file name ends with both `carcols.meta` and `vehicles.meta`, so the order of the two tests never matters. |
| Paths.KindOf | main.py:22-25 | A name is a carcols file exactly when it ends in `carcols.meta`. It is a vehicles file exactly when it ends in `vehicles.meta`. |
| Paths.Bucket | main.py:21-25 | Adding one walked file keeps the buckets well formed. The path lands in exactly the bucket its name's suffix selects, and nothing else changes. |
| Paths.FindMetaFiles | main.py:17-26 | The carcols list holds only `carcols.meta` paths. The vehicles keys are distinct `vehicles.meta` paths. The two collections are disjoint. |
| Paths.FindMetaFilesMembers | main.py:20-25 | A path is in a bucket exactly when some walked entry of that kind joins to it. |
| Paths.FindMetaFilesKeepsWalkOrder | main.py:20-25 | The carcols list of a walk is the carcols list of its first part followed by that of its second part. The vehicles keys of the first part are a prefix of the whole walk's keys. |
| Paths.FindMetaFilesSeparate | main.py:20-25 | No path the walk puts in the carcols list is also a vehicles key, so vehicles files are never rewritten. |
| Paths.FirstPrefixed | main.py:41 | Returns the first index whose path starts with the directory string, or none when no path does. |
| Paths.FindVehicles | main.py:41 | The chosen vehicles file is the first key, in dictionary order, that has the directory as a string prefix. It is absent exactly when no key has that prefix. |
| Paths.SameDirectoryVehiclesFound | main.py:40-41 | A vehicles file walked in the same directory as a carcols file guarantees that the lookup finds some file. This holds for every directory, including a top folder written with a trailing `/`. |
| Paths.PrefixTestMatchesSiblingDirectory | main.py:41 | The prefix test pairs `mods/car1/carcols.meta` with `mods/car10/vehicles.meta` when that key comes first. |
| Extract.MatchIdAt | main.py:47 | At a position, the id pattern captures exactly the digit run that sits between `<id value="` and a closing quote. It captures nothing when there is no such run. |
| Extract.IdCaptureUnique | main.py:47 | At one position, the greedy digit run is the only capture that can be followed by the quote. |
| Extract.NoIdInsideMatch | main.py:47 | No id match starts inside another id match. |
| Extract.ScanIdsSound | main.py:47 | Every id the scan collects is captured by a match at or after the scan's start. |
| Extract.ScanIdsComplete | main.py:47 | Every match at or after the scan's start has its id collected, although the scan resumes after each match. |
| Extract.ExtractIds | main.py:47 | The set of ids is exactly the set of digit strings captured anywhere in the text, each a non-empty digit run. Repeats count once. |
| Extract.MatchKitAtSound | main.py:48 | A kitName match found at a position is a `<kitName>` element with a digit run, a `_`-word suffix and the closing tag. |
| Extract.MatchKitAtComplete | main.py:48 | Every kitName element at a position is found there, with its digits and suffix. |
| Extract.KitCaptureOne | main.py:48 | A kitName element determines its capture: the digits are the whole digit run and the suffix is the whole word run. |
| Extract.NoKitInsideMatch | main.py:48 | No kitName match starts inside another kitName match. |
| Extract.ScanKitsSound | main.py:48 | Every pair the scan collects comes from a kitName element at or after the scan's start. |
| Extract.ScanKitsComplete | main.py:48 | Every kitName element at or after the scan's start has its pair collected. |
| Extract.ExtractKits | main.py:48 | The set of kitName pairs is exactly the set of (digits, suffix) pairs captured anywhere in the text. |
| Extract.ModelCloseFrom | main.py:31 | Finds the nearest closing `</modelName>` that no newline separates from the opening tag, or reports that none exists. |
| Extract.FindModelName | main.py:31 | Finds the leftmost opening tag that has such a closing tag, paired with the nearest one. |
| Extract.GetModelName | main.py:28-32 | The model name is the text between the first `<modelName>` that is closed on its line and the nearest `</modelName>` after it. It is "Unknown" when no such pair exists. |
| Text.Decimal | main.py:52 | The numeral written for a number is a non-empty digit run without a leading zero. |
| Text.NumeralValueOfDecimal | main.py:52 | Reading the written numeral back gives the number. |
| Text.DecimalInjective | main.py:52 | Different numbers are written differently. |
| Rewrite.ReplaceAllIsSplitJoin | main.py:52 | Replacing a literal everywhere equals splitting the text at its non-overlapping occurrences and joining the pieces with the replacement. Text outside the occurrences is unchanged. |
| Rewrite.SplitJoinsBack | main.py:52 | Joining the pieces with the pattern gives the original text. |
| Rewrite.SplitPiecesFree | main.py:52 | No piece contains the pattern. |
| Rewrite.ReplaceAllWithoutMatch | main.py:52 | Text without the pattern is left unchanged. |
| Rewrite.ReplaceAllRemovesPattern | main.py:52 | Assume pattern and replacement both start with a marker that occurs nowhere else in them, and they disagree at some position within both (neither is a prefix of the other). Then no occurrence of the pattern survives, nor is one formed across the replacements. |
| Rewrite.ReplaceAllKeepsAbsent | main.py:52 | Under the same discipline, the replace-all creates no occurrence of another marker-led text, provided that text and the replacement disagree at some position within both (neither is a prefix of the other). |
| Rewrite.IdPatternsDiverge | main.py:52 | The closing quote keeps `<id value="12"` from matching `<id value="123"`: different ids give texts that differ. |
| Rewrite.IdReplaceRemovesOld | main.py:52 | After `<id value="OLD"` is replaced by a different number, OLD's text is gone. |
| Rewrite.IdReplaceKeepsAbsent | main.py:52 | Replacing one id never brings back another id's text, unless the new number is that id. |
| Rewrite.OtherIdUntouched | main.py:52 | Replacing one id leaves the text of any other id, longer or shorter, untouched. |
| Rewrite.FindKitSlot | main.py:61 | Finds the leftmost `<kitName>` + digits + suffix + `</kitName>` at or after a position, or reports that none exists. |
| Rewrite.ReplaceFirstKit | main.py:61 | Only the leftmost element with the suffix is replaced and the text before and after it is kept. Without such an element the text is unchanged. |
| Rewrite.RewrittenSlotIsFirst | main.py:61 | After the replacement, the rewritten element is again the leftmost one with that suffix. |
| Rewrite.SameSuffixOverwrites | main.py:57-62 | A second replacement with the same suffix overwrites the element the first replacement wrote. The result is as if only the second had run. |
| Renumber.EnumerationIsWellFormed | main.py:47-48 | An order that lists the extracted sets has only digit-run ids and `_`-word suffixes. |
| Renumber.EnumerationSize | main.py:51 | A set iterated without repeats is visited as many times as it has elements. |
| Renumber.RangeSize | main.py:67 | The numbers from `lo` up to `hi` are `hi - lo` in count. |
| Renumber.IdEntries | main.py:51-54 | The `j`-th id visited is recorded under `next + j` with its original id and the kitName `<number>_default_modkit`. Entries outside the new numbers are kept. |
| Renumber.KitEntries | main.py:57-62 | The `j`-th kitName visited is recorded under `next + j`. When the counter is above every key, the `not in` test always succeeds, so each entry is new, has no original id, and has the kitName `<number><suffix>`. |
| Renumber.PairedVehicles | main.py:41-42 | The paired vehicles file is the lookup's first prefixed key. When that key is the empty path, which the `if` treats as false, there is no pairing. |
| Renumber.ModelNameFor | main.py:40-42 | When a vehicles file is paired, the model name is that file's `get_model_name`. When none is paired, including when no vehicles key starts with the directory, it is "Unknown". The step fails exactly when the paired file is missing. |
| Renumber.FileEntries | main.py:51-62 | One file adds exactly the numbers from the counter up to the counter plus its ids and kitNames, and keeps every earlier entry. |
| Renumber.FileEntriesBelowCounter | main.py:54-62 | After one file the counter is again above every key, so the next file's numbers are all new keys. |
| Renumber.FileEntriesIdAt | main.py:51-54 | A file's `j`-th id is recorded under the counter plus `j`, with its original id and the default kitName, and the kitName loop that follows does not touch it. |
| Renumber.FileEntriesKitAt | main.py:57-62 | When the counter is above every key, a file's `j`-th kitName is recorded under the `j`-th number after all its ids, in a new entry with no original id. |
| Renumber.ProcessFile | main.py:39-65 | One file's step fails exactly when the carcols file or its paired vehicles file is missing. The failure names the missing vehicles file, which is opened first, and otherwise the carcols file. On success it advances the counter by the file's ids plus kitNames, rewrites only this file, and adds exactly the new numbers. |
| Renumber.Run | main.py:39-65 | Over all files, the counter advances by the total number of ids and kitNames visited, and the entries added are exactly those numbers. |
| Renumber.RunSucceedsIffReadable | main.py:42-45 | The run stops exactly when some carcols file, or the vehicles file paired with it, does not exist. |
| Renumber.RunFrame | main.py:64-65 | A successful run creates no file, changes only carcols files, and keeps entries below the starting counter. |
| Renumber.Rebuild | main.py:35-67 | `count` equals the number of entries and the number of allocations N. The keys are exactly 2000 … 2000+N−1. Non-carcols files are untouched. |
| Renumber.ModelNameForUpdate | main.py:42 | Writing a file that is not a vehicles path does not change any carcols file's model name. |
| Renumber.RunPlacesEntries | main.py:36-62 | The `k`-th file's entries start at the counter's value when the run reaches it: ids first, then kitNames, each with its shape. Every entry records the model name looked up for that file, which matches the name before the run because vehicles files are never rewritten. |
| Renumber.RebuildPlacesEntries | main.py:36-62 | The same placement and model names, counting from 2000, for the summary `Rebuild` returns. |
| Renumber.RawIdReuseGetsFreshIds | main.py:51-54 | The same raw id in two carcols files is recorded under two different numbers, because the counter is never reset. |
| Renumber.CounterPassesFile | main.py:54-62 | A later file's numbers all come after an earlier file's numbers. |
| Renumber.RunRewritesEachFileOnce | main.py:44-65 | When no path is listed twice, each carcols file is rewritten exactly once, from its original text, with the counter's value on reaching it. |
| Renumber.CountIsDistinctCaptures | main.py:47-67 | When the orders list each file's extracted sets, `count` equals the total number of distinct ids and distinct kitName pairs across the files. Repeated occurrences count once. |
| Renumber.IdPassRemovesOriginals | main.py:51-52 | When no original id equals a number the loop hands out, no original `<id value="…"` text survives the id loop. |
| Renumber.RewriteIdsKeepsAbsent | main.py:51-52 | An id text that is gone stays gone while the loop writes only other numbers. |
| Renumber.CollidingIdLosesItsNumber | main.py:51-53 | If the second id visited equals the number the first received, the first id's new number disappears from the file. The summary still records that number as the first id's entry. |
| Renumber.KitPassSameSuffix | main.py:57-61 | Two kitNames with the same suffix rewrite the same leftmost element twice. Only the second number remains in the text. |

## Left out

- `select_directory`, `main` and the prints: these are user-interface plumbing (`main.py:8-15`, `main.py:73-88`). This includes the early return when no carcols file is found.
- `os.walk` itself: the walk is an input sequence of (directory, file name) entries, so directory traversal order and symbolic links are not modelled.
- Reading and writing: files are a map from path to text. UTF-8 decoding errors, newline translation in text mode, permission errors, and paths that name directories are not modelled. The only failure modelled is a missing file.
- `json.dump` to `car_mods_summary.json`: the summary is returned as a value. The conversion of integer keys to JSON strings and the dictionary's insertion order are not modelled; the keys are stated as a set.
- Python's Unicode-aware `\d` and `\w`: these are reduced to ASCII digits and `[A-Za-z0-9_]`.
- The hash-dependent order of set iteration: this is a parameter. The properties are proved for every order.
- Windows paths (`ntpath` joining and `dirname` with backslashes and drive letters): paths are POSIX.
- Renumber.Run: the failure's path is stated by `ProcessFile` for one file: the missing paired vehicles file, else the missing carcols file itself. For the whole run, only whether it fails is stated, not which file is named.
- Renumber.CountIsDistinctCaptures: the hypothesis speaks about each file's text before the run. This is the text the program reads only when no carcols path is listed twice, which holds for paths from one walk.
- Renumber.IdPassRemovesOriginals: this is stated only when no original id equals a new number. In general the program does not guarantee it, and `CollidingIdLosesItsNumber` shows why.
- Renumber.RunPlacesEntries, Renumber.RebuildPlacesEntries and Renumber.RawIdReuseGetsFreshIds: these assume no carcols path is also a vehicles path. Every walk meets this (`Paths.FindMetaFilesSeparate`). Arbitrary path lists that share a path are not covered.

=== FILE: extract.dfy ===
/**
 * The three fixed text patterns the renumbering reads, as hand-written
 * scanners: `<id value="(\d+)"`, `<kitName>(\d+)(_[\w]+)</kitName>` and the
 * first `<modelName>(.*?)</modelName>`. Each scanner is paired with a
 * declarative description of where its pattern matches.
 */
module Extract {
  import opened Wrappers
  import opened Text

  const IdOpen: string := "<id value=\""
  const KitOpen: string := "<kitName>"
  const KitClose: string := "</kitName>"
  const ModelOpen: string := "<modelName>"
  const ModelClose: string := "</modelName>"

  /** The name recorded when no vehicles file or no model name is found. */
  const UnknownModel: string := "Unknown"

  /** A kitName capture: its numeric prefix and its underscore-led suffix. */
  datatype KitName = KitName(digits: string, suffix: string)

  /** What `(_[\w]+)` captures: an underscore followed by at least one word character. */
  predicate IsKitSuffix(x: string) {
    |x| >= 2 && x[0] == '_' && forall k :: 1 <= k < |x| ==> IsWordChar(x[k])
  }

  /** The end of the run of digits that starts at `i`. */
  function DigitRunEnd(s: string, i: nat): (e: nat)
    requires i <= |s|
    ensures i <= e <= |s|
    ensures forall k :: i <= k < e ==> IsDigit(s[k])
    ensures e == |s| || !IsDigit(s[e])
    decreases |s| - i
  {
    if i == |s| || !IsDigit(s[i]) then i else DigitRunEnd(s, i + 1)
  }

  /** The end of the run of word characters that starts at `i`. */
  function WordRunEnd(s: string, i: nat): (e: nat)
    requires i <= |s|
    ensures i <= e <= |s|
    ensures forall k :: i <= k < e ==> IsWordChar(s[k])
    ensures e == |s| || !IsWordChar(s[e])
    decreases |s| - i
  {
    if i == |s| || !IsWordChar(s[i]) then i else WordRunEnd(s, i + 1)
  }

  /** Where `pat` sits at `i`, each character of `s` in that stretch is the matching character of `pat`. */
  lemma CharInOccurrence(s: string, pat: string, i: nat, j: nat)
    requires OccursAt(s, pat, i) && i <= j < i + |pat|
    ensures s[j] == pat[j - i]
  {
    assert s[j] == s[i..i + |pat|][j - i];
  }

  // ---------------------------------------------------------------------------
  // `<id value="(\d+)"`

  /** The id pattern matches at `i`, capturing `d`. */
  ghost predicate IdAt(s: string, i: nat, d: string) {
    OccursAt(s, IdOpen, i) && IsNumeral(d) && OccursAt(s, d + "\"", i + |IdOpen|)
  }

  /** The id pattern tried at one position: the capture when it matches there. */
  function MatchIdAt(s: string, i: nat): (r: Option<string>)
    requires i <= |s|
    ensures r.Some? ==> IdAt(s, i, r.value)
    ensures forall d :: IdAt(s, i, d) ==> r == Some(d)
  {
    var start := i + |IdOpen|;
    if OccursAt(s, IdOpen, i) then
      var e := DigitRunEnd(s, start);
      if start < e < |s| && s[e] == '"' then
        assert s[start..e + 1] == s[start..e] + "\"";
        IdCaptureUnique(s, i, e);
        Some(s[start..e])
      else
        IdCaptureUnique(s, i, e);
        None
    else None
  }

  /** A capture at `i` is exactly the maximal digit run after the opening text. */
  lemma IdCaptureUnique(s: string, i: nat, e: nat)
    requires OccursAt(s, IdOpen, i) && e == DigitRunEnd(s, i + |IdOpen|)
    ensures forall d :: IdAt(s, i, d) ==> e == i + |IdOpen| + |d| && s[i + |IdOpen|..e] == d && e < |s| && s[e] == '"'
  {
    forall d | IdAt(s, i, d)
      ensures e == i + |IdOpen| + |d| && s[i + |IdOpen|..e] == d && e < |s| && s[e] == '"'
    {
      var start := i + |IdOpen|;
      var q := start + |d|;
      var w := d + "\"";
      assert s[start..q + 1] == w;
      forall k | 0 <= k <= |d| ensures s[start + k] == w[k] {
        assert s[start + k] == s[start..q + 1][k];
      }
      assert s[q] == w[|d|] == '"';
      forall k | start <= k < q ensures IsDigit(s[k]) {
        assert s[k] == w[k - start] == d[k - start];
      }
      assert e == q;
      assert s[start..q] == d by {
        forall k | 0 <= k < |d| ensures s[start..q][k] == d[k] {
          assert s[start..q][k] == s[start + k] == w[k];
        }
      }
    }
  }

  /** No id match starts strictly inside another: the only `<` of a match is its first character. */
  lemma NoIdInsideMatch(s: string, i: nat, d: string, j: nat)
    requires IdAt(s, i, d) && i < j < i + |IdOpen| + |d| + 1
    ensures forall d' :: !IdAt(s, j, d')
  {
    var start := i + |IdOpen|;
    if j < start {
      CharInOccurrence(s, IdOpen, i, j);
    } else {
      CharInOccurrence(s, d + "\"", start, j);
      assert s[j] == (d + "\"")[j - start];
    }
    assert s[j] != '<';
    forall d' | IdAt(s, j, d') ensures false {
      CharInOccurrence(s, IdOpen, j, j);
    }
  }

  /**
   * `re.findall` for the id pattern from position `i` on: after a match the
   * scan resumes where the match ended; the captures are collected as a set.
   */
  function ScanIds(s: string, i: nat): (r: set<string>)
    requires i <= |s|
    ensures forall d :: d in r ==> IsNumeral(d)
    decreases |s| - i
  {
    if i == |s| then {}
    else
      match MatchIdAt(s, i)
      case Some(d) => {d} + ScanIds(s, i + |IdOpen| + |d| + 1)
      case None => ScanIds(s, i + 1)
  }

  /** Every capture the scan from `i` collects comes from a match at or after `i`. */
  lemma {:induction false} ScanIdsSound(s: string, i: nat)
    requires i <= |s|
    ensures forall d :: d in ScanIds(s, i) ==> exists j: nat :: i <= j && IdAt(s, j, d)
    decreases |s| - i
  {
    if i < |s| {
      match MatchIdAt(s, i)
      case Some(d0) =>
        var next := i + |IdOpen| + |d0| + 1;
        ScanIdsSound(s, next);
        assert IdAt(s, i, d0);
      case None =>
        ScanIdsSound(s, i + 1);
    }
  }

  /** Every match at or after `i` has its capture collected, although the scan skips over match bodies. */
  lemma {:induction false} ScanIdsComplete(s: string, i: nat)
    requires i <= |s|
    ensures forall d, j: nat :: i <= j && IdAt(s, j, d) ==> d in ScanIds(s, i)
    decreases |s| - i
  {
    if i < |s| {
      match MatchIdAt(s, i)
      case Some(d0) =>
        var next := i + |IdOpen| + |d0| + 1;
        ScanIdsComplete(s, next);
        forall d, j: nat | i <= j && IdAt(s, j, d) ensures d in ScanIds(s, i) {
          if j == i {
            assert d == d0;
          } else if j < next {
            NoIdInsideMatch(s, i, d0, j);
          }
        }
      case None =>
        ScanIdsComplete(s, i + 1);
    }
  }

  /**
   * `set(re.findall(r'<id value="(\d+)"', content))`: every digit string that
   * the id pattern captures somewhere in the text, each once.
   */
  function ExtractIds(s: string): (r: set<string>)
    ensures forall d :: d in r <==> exists j: nat :: IdAt(s, j, d)
    ensures forall d :: d in r ==> IsNumeral(d)
  {
    ScanIdsSound(s, 0);
    ScanIdsComplete(s, 0);
    ScanIds(s, 0)
  }

  // ---------------------------------------------------------------------------
  // `<kitName>(\d+)(_[\w]+)</kitName>`

  /**
   * A kitName element starts at `i` whose digits end at `e` and which closes
   * right after `suffix`: the text `<kitName>` then digits then `suffix`
   * then `</kitName>`.
   */
  ghost predicate KitSlotAt(s: string, i: nat, e: nat, suffix: string) {
    && OccursAt(s, KitOpen, i)
    && i + |KitOpen| < e
    && OccursAt(s, suffix + KitClose, e)
    && (forall k :: i + |KitOpen| <= k < e ==> IsDigit(s[k]))
  }

  /** Where a kit slot ends: one past the `>` of its closing text. */
  function KitSlotEnd(e: nat, suffix: string): nat {
    e + |suffix| + |KitClose|
  }

  /** The kitName pattern matches at `i`, capturing `k`. */
  ghost predicate KitAt(s: string, i: nat, k: KitName) {
    && OccursAt(s, KitOpen, i)
    && IsNumeral(k.digits)
    && IsKitSuffix(k.suffix)
    && OccursAt(s, k.digits + k.suffix + KitClose, i + |KitOpen|)
  }

  lemma KitAtIsSlot(s: string, i: nat, k: KitName)
    requires KitAt(s, i, k)
    ensures KitSlotAt(s, i, i + |KitOpen| + |k.digits|, k.suffix)
    ensures s[i + |KitOpen|..i + |KitOpen| + |k.digits|] == k.digits
  {
    var start := i + |KitOpen|;
    var e := start + |k.digits|;
    var whole := k.digits + k.suffix + KitClose;
    assert s[start..start + |whole|] == whole;
    assert s[start..e] == s[start..start + |whole|][..|k.digits|];
    assert whole[..|k.digits|] == k.digits;
    assert s[e..e + |k.suffix + KitClose|] == s[start..start + |whole|][|k.digits|..];
    assert whole[|k.digits|..] == k.suffix + KitClose;
    forall q | start <= q < e ensures IsDigit(s[q]) {
      assert s[q] == k.digits[q - start];
    }
  }

  /** Inside a kit slot the only `<` after the first character is the one that opens `</kitName>`. */
  lemma AngleInsideKitSlot(s: string, i: nat, e: nat, suffix: string, p: nat)
    requires KitSlotAt(s, i, e, suffix) && IsKitSuffix(suffix)
    requires i < p < KitSlotEnd(e, suffix) && s[p] == '<'
    ensures p == e + |suffix|
  {
    if p < i + |KitOpen| {
      CharInOccurrence(s, KitOpen, i, p);
    } else if e <= p {
      CharInOccurrence(s, suffix + KitClose, e, p);
    }
  }

  /** The kitName pattern tried at one position: the capture when it matches there. */
  function MatchKitAt(s: string, i: nat): Option<KitName>
    requires i <= |s|
  {
    var start := i + |KitOpen|;
    if OccursAt(s, KitOpen, i) then
      var e1 := DigitRunEnd(s, start);
      if start < e1 < |s| && s[e1] == '_' then
        var e2 := WordRunEnd(s, e1 + 1);
        if e1 + 1 < e2 && OccursAt(s, KitClose, e2) then Some(KitName(s[start..e1], s[e1..e2]))
        else None
      else None
    else None
  }

  lemma MatchKitAtSound(s: string, i: nat)
    requires i <= |s| && MatchKitAt(s, i).Some?
    ensures KitAt(s, i, MatchKitAt(s, i).value)
  {
    var k := MatchKitAt(s, i).value;
    var start := i + |KitOpen|;
    var e1 := start + |k.digits|;
    var e2 := e1 + |k.suffix|;
    assert s[start..e2 + |KitClose|] == s[start..e1] + s[e1..e2] + s[e2..e2 + |KitClose|];
  }

  lemma MatchKitAtComplete(s: string, i: nat, k: KitName)
    requires i <= |s| && KitAt(s, i, k)
    ensures MatchKitAt(s, i) == Some(k)
  {
    KitCaptureOne(s, i, k);
  }

  /** A capture at `i` is the maximal digit run and then the maximal word run after the opening text. */
  ghost predicate KitCaptureAt(s: string, i: nat, k: KitName) {
    i + |KitOpen| <= |s| &&
    var e1 := DigitRunEnd(s, i + |KitOpen|);
    && e1 == i + |KitOpen| + |k.digits| && e1 < |s| && s[e1] == '_'
    && WordRunEnd(s, e1 + 1) == e1 + |k.suffix|
    && OccursAt(s, KitClose, e1 + |k.suffix|)
    && s[i + |KitOpen|..e1] == k.digits
    && s[e1..e1 + |k.suffix|] == k.suffix
  }

  lemma KitCaptureOne(s: string, i: nat, k: KitName)
    requires KitAt(s, i, k)
    ensures KitCaptureAt(s, i, k)
  {
    var start := i + |KitOpen|;
    var e := start + |k.digits|;
    KitAtIsSlot(s, i, k);
    var tail := k.suffix + KitClose;
    assert s[e..e + |tail|] == tail;
    assert s[e] == k.suffix[0] == '_';
    assert DigitRunEnd(s, start) == e;
    var c := e + |k.suffix|;
    assert s[e..c] == s[e..e + |tail|][..|k.suffix|];
    assert tail[..|k.suffix|] == k.suffix;
    assert s[c..c + |KitClose|] == s[e..e + |tail|][|k.suffix|..];
    assert tail[|k.suffix|..] == KitClose;
    forall q | e + 1 <= q < c ensures IsWordChar(s[q]) {
      assert s[q] == k.suffix[q - e];
    }
    assert s[c] == KitClose[0];
    assert WordRunEnd(s, e + 1) == c;
  }

  /** No kitName match starts strictly inside another one. */
  lemma NoKitInsideMatch(s: string, i: nat, k: KitName, j: nat)
    requires KitAt(s, i, k)
    requires i < j < KitSlotEnd(i + |KitOpen| + |k.digits|, k.suffix)
    ensures forall k' :: !KitAt(s, j, k')
  {
    var e := i + |KitOpen| + |k.digits|;
    KitAtIsSlot(s, i, k);
    forall k' | KitAt(s, j, k') ensures false {
      CharInOccurrence(s, KitOpen, j, j);
      AngleInsideKitSlot(s, i, e, k.suffix, j);
      CharInOccurrence(s, KitOpen, j, j + 1);
      CharInOccurrence(s, k.suffix + KitClose, e, j + 1);
    }
  }

  /** `re.findall` for the kitName pattern from position `i` on, collected as a set of pairs. */
  function ScanKits(s: string, i: nat): (r: set<KitName>)
    requires i <= |s|
    ensures forall k :: k in r ==> IsNumeral(k.digits) && IsKitSuffix(k.suffix)
    decreases |s| - i
  {
    if i == |s| then {}
    else
      match MatchKitAt(s, i)
      case Some(k) => MatchKitAtSound(s, i); {k} + ScanKits(s, KitSlotEnd(i + |KitOpen| + |k.digits|, k.suffix))
      case None => ScanKits(s, i + 1)
  }

  lemma {:induction false} ScanKitsSound(s: string, i: nat)
    requires i <= |s|
    ensures forall k :: k in ScanKits(s, i) ==> exists j: nat :: i <= j && KitAt(s, j, k)
    decreases |s| - i
  {
    if i < |s| {
      match MatchKitAt(s, i)
      case Some(k0) =>
        ScanKitsSound(s, KitSlotEnd(i + |KitOpen| + |k0.digits|, k0.suffix));
        MatchKitAtSound(s, i);
      case None =>
        ScanKitsSound(s, i + 1);
    }
  }

  lemma {:induction false} ScanKitsComplete(s: string, i: nat)
    requires i <= |s|
    ensures forall k, j: nat :: i <= j && KitAt(s, j, k) ==> k in ScanKits(s, i)
    decreases |s| - i
  {
    if i < |s| {
      match MatchKitAt(s, i)
      case Some(k0) =>
        var next := KitSlotEnd(i + |KitOpen| + |k0.digits|, k0.suffix);
        ScanKitsComplete(s, next);
        forall k, j: nat | i <= j && KitAt(s, j, k) ensures k in ScanKits(s, i) {
          if j == i {
            MatchKitAtComplete(s, i, k);
          } else if j < next {
            MatchKitAtSound(s, i);
            NoKitInsideMatch(s, i, k0, j);
          }
        }
      case None =>
        ScanKitsComplete(s, i + 1);
        forall k | KitAt(s, i, k) ensures false {
          MatchKitAtComplete(s, i, k);
        }
    }
  }

  /**
   * `set(re.findall(r'<kitName>(\d+)(_[\w]+)</kitName>', content))`: every
   * (digits, suffix) pair the kitName pattern captures, each once.
   */
  function ExtractKits(s: string): (r: set<KitName>)
    ensures forall k :: k in r <==> exists j: nat :: KitAt(s, j, k)
    ensures forall k :: k in r ==> IsNumeral(k.digits) && IsKitSuffix(k.suffix)
  {
    ScanKitsSound(s, 0);
    ScanKitsComplete(s, 0);
    ScanKits(s, 0)
  }

  // ---------------------------------------------------------------------------
  // The first `<modelName>(.*?)</modelName>`

  /** No line break in `s[a..b]`: the regular-expression `.` matches any character except `\n`. */
  predicate NoNewline(s: string, a: nat, b: nat)
    requires a <= b <= |s|
  {
    forall k :: a <= k < b ==> s[k] != '\n'
  }

  /**
   * The model-name pattern matches at `i` with its closing text at `j`: the
   * captured name `s[i + 11..j]` is on one line.
   */
  ghost predicate ModelNameAt(s: string, i: nat, j: nat) {
    && OccursAt(s, ModelOpen, i)
    && i + |ModelOpen| <= j
    && OccursAt(s, ModelClose, j)
    && NoNewline(s, i + |ModelOpen|, j)
  }

  /**
   * The match `re.findall` reports first: the leftmost start that has a
   * match, closed by the nearest closing text (the lazy `.*?`).
   */
  ghost predicate FirstModelNameAt(s: string, i: nat, j: nat) {
    && ModelNameAt(s, i, j)
    && (forall i': nat, j': nat :: i' < i ==> !ModelNameAt(s, i', j'))
    && (forall j': nat :: j' < j ==> !ModelNameAt(s, i, j'))
  }

  /** The nearest `</modelName>` at or after `j`, giving up at a line break or the end of the text. */
  function ModelCloseFrom(s: string, start: nat, j: nat): (r: Option<nat>)
    requires start <= j <= |s| && NoNewline(s, start, j)
    ensures r.Some? ==> j <= r.value && OccursAt(s, ModelClose, r.value) && NoNewline(s, start, r.value)
    ensures r.Some? ==> forall m :: j <= m < r.value ==> !OccursAt(s, ModelClose, m)
    ensures r.None? ==> forall m :: j <= m <= |s| && OccursAt(s, ModelClose, m) ==> !NoNewline(s, start, m)
    decreases |s| - j
  {
    if OccursAt(s, ModelClose, j) then Some(j)
    else if j == |s| || s[j] == '\n' then None
    else ModelCloseFrom(s, start, j + 1)
  }

  /** The first model-name match whose opening text starts at or after `i`, as (open, close) positions. */
  function FindModelName(s: string, i: nat): (r: Option<(nat, nat)>)
    requires i <= |s|
    ensures r.Some? ==> i <= r.value.0 && ModelNameAt(s, r.value.0, r.value.1)
    ensures r.Some? ==> forall j': nat :: j' < r.value.1 ==> !ModelNameAt(s, r.value.0, j')
    ensures r.Some? ==> forall i': nat, j': nat :: i <= i' < r.value.0 ==> !ModelNameAt(s, i', j')
    ensures r.None? ==> forall i': nat, j': nat :: i <= i' ==> !ModelNameAt(s, i', j')
    decreases |s| - i
  {
    if i == |s| then None
    else if OccursAt(s, ModelOpen, i) then
      match ModelCloseFrom(s, i + |ModelOpen|, i + |ModelOpen|)
      case Some(j) => Some((i, j))
      case None => FindModelName(s, i + 1)
    else FindModelName(s, i + 1)
  }

  /**
   * `get_model_name` on a file's text: the text between the first
   * `<modelName>` that is closed on the same line and its nearest
   * `</modelName>`, or "Unknown" when there is no such pair.
   */
  function GetModelName(s: string): (name: string)
    ensures (forall i: nat, j: nat :: !ModelNameAt(s, i, j)) ==> name == UnknownModel
    ensures (exists i: nat, j: nat :: ModelNameAt(s, i, j)) ==>
              exists i: nat, j: nat :: FirstModelNameAt(s, i, j) && name == s[i + |ModelOpen|..j]
  {
    match FindModelName(s, 0)
    case Some((i, j)) =>
      assert FirstModelNameAt(s, i, j);
      s[i + |ModelOpen|..j]
    case None => UnknownModel
  }
}

=== FILE: paths.dfy ===
/**
 * Walking the selected folder: bucketing file names by suffix, the POSIX
 * `os.path.join` / `os.path.dirname` the renumbering relies on, and the lookup
 * that pairs a carcols file with a vehicles file.
 */
module Paths {
  import opened Wrappers
  import opened Text

  type Path = string

  /** One file reported by the directory walk: the directory it was listed under and its bare name. */
  datatype WalkEntry = WalkEntry(root: Path, name: string)

  predicate HasNoSlash(s: string) {
    forall k :: 0 <= k < |s| ==> s[k] != '/'
  }

  predicate AllSlashes(s: string) {
    forall k :: 0 <= k < |s| ==> s[k] == '/'
  }

  /** POSIX `os.path.join(root, name)`: an absolute `name` wins; otherwise one `/` separates the parts. */
  function Join(root: Path, name: string): (p: Path)
    ensures EndsWith(p, name)
    ensures (name == "" || name[0] != '/') ==> StartsWith(p, root)
  {
    if name != "" && name[0] == '/' then name
    else if root == "" || root[|root| - 1] == '/' then root + name
    else root + "/" + name
  }

  /** The length of the longest prefix of `p` that ends in `/` (zero when `p` has no `/`). */
  function SlashEnd(p: Path): (i: nat)
    ensures i <= |p|
    ensures i > 0 ==> p[i - 1] == '/'
    ensures forall k :: i <= k < |p| ==> p[k] != '/'
    decreases |p|
  {
    if p == "" then 0
    else if p[|p| - 1] == '/' then |p|
    else SlashEnd(p[..|p| - 1])
  }

  /** `s` with every trailing `/` removed. */
  function StripTrailingSlashes(s: string): (r: string)
    ensures StartsWith(s, r)
    ensures forall k :: |r| <= k < |s| ==> s[k] == '/'
    ensures r == "" || r[|r| - 1] != '/'
    decreases |s|
  {
    if s != "" && s[|s| - 1] == '/' then StripTrailingSlashes(s[..|s| - 1]) else s
  }

  /**
   * POSIX `os.path.dirname(p)`: everything up to the last `/`, with the
   * trailing slashes removed unless that part consists of slashes only.
   */
  function Dirname(p: Path): (d: Path)
    ensures StartsWith(p, d)
    ensures |d| <= SlashEnd(p)
  {
    var head := p[..SlashEnd(p)];
    if head != "" && !AllSlashes(head) then
      StartsWithTransitive(p, head, StripTrailingSlashes(head));
      StripTrailingSlashes(head)
    else head
  }

  /** The directory of a file joined onto a plain directory name is that directory again. */
  lemma DirnameOfJoin(root: Path, name: string)
    requires root != "" && root[|root| - 1] != '/'
    requires name != "" && HasNoSlash(name)
    ensures Dirname(Join(root, name)) == root
  {
    var p := Join(root, name);
    assert p == root + "/" + name;
    assert p[|root|] == '/';
    var i := SlashEnd(p);
    assert p[|root| + 1..] == name;
    assert i == |root| + 1;
    var head := p[..i];
    assert head == root + "/";
    assert head[|root| - 1] != '/';
    assert !AllSlashes(head);
    var r := StripTrailingSlashes(head);
    assert r == root by {
      assert StripTrailingSlashes(root) == root;
      assert head[..|head| - 1] == root;
    }
  }

  // ---------------------------------------------------------------------------
  // Bucketing walked files by suffix

  const CarColsSuffix: string := "carcols.meta"
  const VehiclesSuffix: string := "vehicles.meta"

  datatype MetaKind = CarCols | Vehicles | Unrelated

  /** No name ends in both suffixes, so the `elif` in the walk loop never hides a second match. */
  lemma SuffixesExclusive(name: string)
    ensures !(EndsWith(name, CarColsSuffix) && EndsWith(name, VehiclesSuffix))
  {
    if EndsWith(name, CarColsSuffix) && |VehiclesSuffix| <= |name| {
      assert name[|name| - 12] == CarColsSuffix[0];
      assert name[|name| - 13..][1] != VehiclesSuffix[1];
    }
  }

  /** The bucket a walked file name falls into: `carcols.meta` is tested first, then `vehicles.meta`. */
  function KindOf(name: string): (k: MetaKind)
    ensures k == CarCols <==> EndsWith(name, CarColsSuffix)
    ensures k == Vehicles <==> EndsWith(name, VehiclesSuffix)
  {
    SuffixesExclusive(name);
    if EndsWith(name, CarColsSuffix) then CarCols
    else if EndsWith(name, VehiclesSuffix) then Vehicles
    else Unrelated
  }

  /**
   * The two collections the walk builds: the list of carcols paths, and the
   * keys of the vehicles dictionary in insertion order.
   */
  datatype MetaFiles = MetaFiles(carcols: seq<Path>, vehicles: seq<Path>)

  ghost predicate Walked(walk: seq<WalkEntry>, kind: MetaKind, p: Path) {
    exists e :: e in walk && KindOf(e.name) == kind && Join(e.root, e.name) == p
  }

  /** Buckets are well formed: right suffixes, no vehicles path twice, no path in both. */
  predicate WellBucketed(m: MetaFiles) {
    && Distinct(m.vehicles)
    && (forall p :: p in m.carcols ==> EndsWith(p, CarColsSuffix) && p !in m.vehicles)
    && (forall p :: p in m.vehicles ==> EndsWith(p, VehiclesSuffix))
  }

  /** One iteration of the walk loop: file `e` lands in the bucket its name selects. */
  function Bucket(prev: MetaFiles, e: WalkEntry): (r: MetaFiles)
    requires WellBucketed(prev)
    ensures WellBucketed(r)
    ensures forall p :: p in r.carcols <==> p in prev.carcols || (KindOf(e.name) == CarCols && p == Join(e.root, e.name))
    ensures forall p :: p in r.vehicles <==> p in prev.vehicles || (KindOf(e.name) == Vehicles && p == Join(e.root, e.name))
  {
    var path := Join(e.root, e.name);
    SuffixesExclusive(path);
    match KindOf(e.name)
    case CarCols =>
      EndsWithTransitive(path, e.name, CarColsSuffix);
      prev.(carcols := prev.carcols + [path])
    case Vehicles =>
      EndsWithTransitive(path, e.name, VehiclesSuffix);
      if path in prev.vehicles then prev else prev.(vehicles := prev.vehicles + [path])
    case Unrelated => prev
  }

  /** Bucket every walked file, in walk order; a vehicles path seen twice keeps its first position. */
  function FindMetaFiles(walk: seq<WalkEntry>): (r: MetaFiles)
    ensures WellBucketed(r)
    decreases |walk|
  {
    if walk == [] then MetaFiles([], [])
    else Bucket(FindMetaFiles(walk[..|walk| - 1]), walk[|walk| - 1])
  }

  /** A path is in a bucket exactly when some walked file of that kind joins to it. */
  lemma {:induction false} FindMetaFilesMembers(walk: seq<WalkEntry>)
    ensures forall p :: p in FindMetaFiles(walk).carcols <==> Walked(walk, CarCols, p)
    ensures forall p :: p in FindMetaFiles(walk).vehicles <==> Walked(walk, Vehicles, p)
    decreases |walk|
  {
    if walk != [] {
      var e := walk[|walk| - 1];
      var prefix := walk[..|walk| - 1];
      assert walk == prefix + [e];
      FindMetaFilesMembers(prefix);
      forall kind, p | kind == CarCols || kind == Vehicles
        ensures Walked(walk, kind, p) <==> Walked(prefix, kind, p) || (KindOf(e.name) == kind && p == Join(e.root, e.name))
      {
        if Walked(walk, kind, p) {
          var e' :| e' in walk && KindOf(e'.name) == kind && Join(e'.root, e'.name) == p;
          if e' != e {
            assert e' in prefix;
          }
        }
        if KindOf(e.name) == kind && p == Join(e.root, e.name) {
          assert e in walk;
        }
      }
    }
  }

  /**
   * The buckets keep walk order: walking more files only appends carcols
   * paths, and the vehicles paths already collected keep their positions.
   */
  lemma {:induction false} FindMetaFilesKeepsWalkOrder(w1: seq<WalkEntry>, w2: seq<WalkEntry>)
    ensures FindMetaFiles(w1 + w2).carcols == FindMetaFiles(w1).carcols + FindMetaFiles(w2).carcols
    ensures FindMetaFiles(w1).vehicles <= FindMetaFiles(w1 + w2).vehicles
    decreases |w2|
  {
    if w2 == [] {
      assert w1 + w2 == w1;
    } else {
      var w2' := w2[..|w2| - 1];
      var e := w2[|w2| - 1];
      assert (w1 + w2)[..|w1 + w2| - 1] == w1 + w2';
      assert (w1 + w2)[|w1 + w2| - 1] == e;
      FindMetaFilesKeepsWalkOrder(w1, w2');
      var whole := FindMetaFiles(w1 + w2');
      var tail := FindMetaFiles(w2');
      assert FindMetaFiles(w1 + w2) == Bucket(whole, e);
      assert FindMetaFiles(w2) == Bucket(tail, e);
      var added := BucketAdded(e);
      BucketAppends(whole, e);
      BucketAppends(tail, e);
      var x, y := FindMetaFiles(w1).carcols, tail.carcols;
      assert whole.carcols == x + y;
      if added == [] {
        assert y + added == y;
      } else {
        assert (x + y) + added == x + (y + added);
      }
    }
  }

  /** The carcols paths one walk entry contributes: none, or its joined path. */
  function BucketAdded(e: WalkEntry): seq<Path> {
    if KindOf(e.name) == CarCols then [Join(e.root, e.name)] else []
  }

  lemma BucketAppends(prev: MetaFiles, e: WalkEntry)
    requires WellBucketed(prev)
    ensures Bucket(prev, e).carcols == prev.carcols + BucketAdded(e)
    ensures prev.vehicles <= Bucket(prev, e).vehicles
  {
  }

  /**
   * No carcols path is also a vehicles path. The walk's buckets always are
   * (`WellBucketed`), so rewriting the carcols files never touches a vehicles file.
   */
  predicate Separate(carcols: seq<Path>, vehicles: seq<Path>) {
    forall k :: 0 <= k < |carcols| ==> carcols[k] !in vehicles
  }

  /** The walk's two buckets are always separate, so the hypothesis holds for every pair of collections the walk builds. */
  lemma FindMetaFilesSeparate(walk: seq<WalkEntry>)
    ensures Separate(FindMetaFiles(walk).carcols, FindMetaFiles(walk).vehicles)
  {
    var m := FindMetaFiles(walk);
    forall k | 0 <= k < |m.carcols| ensures m.carcols[k] !in m.vehicles {
      assert m.carcols[k] in m.carcols;
    }
  }

  // ---------------------------------------------------------------------------
  // Pairing a carcols file with a vehicles file

  /** The first index at or after `from` whose path starts with `directory`. */
  function FirstPrefixed(paths: seq<Path>, directory: Path, from: nat): (r: Option<nat>)
    requires from <= |paths|
    ensures r.Some? ==> from <= r.value < |paths| && StartsWith(paths[r.value], directory)
    ensures r.Some? ==> forall k :: from <= k < r.value ==> !StartsWith(paths[k], directory)
    ensures r.None? ==> forall k :: from <= k < |paths| ==> !StartsWith(paths[k], directory)
    decreases |paths| - from
  {
    if from == |paths| then None
    else if StartsWith(paths[from], directory) then Some(from)
    else FirstPrefixed(paths, directory, from + 1)
  }

  /**
   * The vehicles file paired with a carcols file: the first vehicles path, in
   * dictionary order, whose text starts with the carcols file's directory.
   * This is a string-prefix test, so a sibling directory whose name extends
   * the directory's name also qualifies.
   */
  function FindVehicles(vehicles: seq<Path>, directory: Path): (r: Option<Path>)
    ensures r.None? <==> forall k :: 0 <= k < |vehicles| ==> !StartsWith(vehicles[k], directory)
    ensures r.Some? ==> exists k :: 0 <= k < |vehicles| && vehicles[k] == r.value
                          && StartsWith(vehicles[k], directory)
                          && forall k' :: 0 <= k' < k ==> !StartsWith(vehicles[k'], directory)
  {
    match FirstPrefixed(vehicles, directory, 0)
    case None => None
    case Some(k) => Some(vehicles[k])
  }

  /** What `Join` puts in front of a relative file name: the directory, followed by `/` unless it is empty or already ends in one. */
  function JoinBase(root: Path): (b: Path)
    ensures StartsWith(b, root)
    ensures b == "" || b[|b| - 1] == '/'
  {
    if root == "" || root[|root| - 1] == '/' then root else root + "/"
  }

  /** A plain file name joined onto any directory: the last `/` of the path closes the directory part. */
  lemma JoinHead(root: Path, name: string)
    requires name != "" && HasNoSlash(name)
    ensures Join(root, name) == JoinBase(root) + name
    ensures SlashEnd(Join(root, name)) == |JoinBase(root)|
  {
    assert Join(root, name) == JoinBase(root) + name;
  }

  /** A prefix no longer than the shared head of two texts is a prefix of both. */
  lemma PrefixOfSharedHead(head: string, a: string, b: string, d: string)
    requires StartsWith(head + a, d) && |d| <= |head|
    ensures StartsWith(head + b, d)
  {
    assert (head + a)[..|d|] == head[..|d|] == (head + b)[..|d|];
  }

  /**
   * A vehicles file walked in the same directory as a carcols file is always
   * found, so the carcols file never falls back to "Unknown" for want of a
   * lookup match (it may still be paired with an earlier, different file).
   * This holds for every directory the walk reports, including the top
   * folder written with a trailing `/`, or `/` itself.
   */
  lemma SameDirectoryVehiclesFound(walk: seq<WalkEntry>, carcols: WalkEntry, vehicles: WalkEntry)
    requires carcols in walk && vehicles in walk
    requires KindOf(carcols.name) == CarCols && KindOf(vehicles.name) == Vehicles
    requires carcols.root == vehicles.root
    requires HasNoSlash(carcols.name) && HasNoSlash(vehicles.name)
    ensures FindVehicles(FindMetaFiles(walk).vehicles, Dirname(Join(carcols.root, carcols.name))).Some?
  {
    var found := FindMetaFiles(walk);
    FindMetaFilesMembers(walk);
    var base := JoinBase(carcols.root);
    JoinHead(carcols.root, carcols.name);
    JoinHead(vehicles.root, vehicles.name);
    var d := Dirname(Join(carcols.root, carcols.name));
    var v := Join(vehicles.root, vehicles.name);
    PrefixOfSharedHead(base, carcols.name, vehicles.name, d);
    assert Walked(walk, Vehicles, v);
    assert v in found.vehicles;
    var k :| 0 <= k < |found.vehicles| && found.vehicles[k] == v;
    assert StartsWith(found.vehicles[k], d);
  }

  /**
   * The prefix test at work: for `mods/car1/carcols.meta` the file
   * `mods/car10/vehicles.meta`, listed first, is chosen over the one in
   * `mods/car1` itself.
   */
  lemma PrefixTestMatchesSiblingDirectory()
    ensures FindVehicles(["mods/car10/vehicles.meta", "mods/car1/vehicles.meta"],
                         Dirname(Join("mods/car1", "carcols.meta")))
            == Some("mods/car10/vehicles.meta")
  {
    DirnameOfJoin("mods/car1", "carcols.meta");
    var vehicles := ["mods/car10/vehicles.meta", "mods/car1/vehicles.meta"];
    assert StartsWith(vehicles[0], "mods/car1");
  }
}

=== FILE: renumber.dfy ===
/**
 * The renumbering run: one counter, seeded at 2000 and shared by every
 * carcols file, hands out a new number to each distinct id and then to each
 * distinct kitName of a file, rewrites the file's text and records one
 * summary entry per number handed out.
 */
module Renumber {
  import opened Wrappers
  import opened Text
  import opened Paths
  import opened Extract
  import opened Rewrite

  /** The first number the counter hands out. */
  const FirstNewId: nat := 2000

  /** What an id's summary entry names as its kitName. */
  const DefaultKitSuffix: string := "_default_modkit"

  /** One entry of the summary's `cars` dictionary; `originalId` is absent for a kitName's entry. */
  datatype CarEntry = CarEntry(filePath: Path, modelName: string, originalId: Option<string>, newId: nat, kitName: string)

  /**
   * The order in which the loops visit one file's two sets of captures.
   * Python iterates a set in an order that depends on string hashing, so
   * the model takes it as a parameter.
   */
  datatype FileOrder = FileOrder(ids: seq<string>, kits: seq<KitName>)

  /** Every id is a digit run and every kitName suffix is `_` and word characters, as the patterns capture. */
  predicate WellFormedOrder(o: FileOrder) {
    && (forall j :: 0 <= j < |o.ids| ==> IsNumeral(o.ids[j]))
    && (forall j :: 0 <= j < |o.kits| ==> IsKitSuffix(o.kits[j].suffix))
  }

  /** The order visits each capture of `content` exactly once, as iterating the two sets does. */
  predicate Enumerates(o: FileOrder, content: string) {
    && Distinct(o.ids) && (set x | x in o.ids) == ExtractIds(content)
    && Distinct(o.kits) && (set k | k in o.kits) == ExtractKits(content)
  }

  lemma EnumerationIsWellFormed(o: FileOrder, content: string)
    requires Enumerates(o, content)
    ensures WellFormedOrder(o)
  {
    forall j | 0 <= j < |o.ids| ensures IsNumeral(o.ids[j]) {
      assert o.ids[j] in ExtractIds(content);
    }
    forall j | 0 <= j < |o.kits| ensures IsKitSuffix(o.kits[j].suffix) {
      assert o.kits[j] in ExtractKits(content);
    }
  }

  /** The numbers `lo`, ..., `hi - 1`. */
  function Range(lo: nat, hi: nat): (r: set<nat>)
    ensures forall n :: n in r <==> lo <= n < hi
    decreases hi - lo
  {
    if lo < hi then {lo} + Range(lo + 1, hi) else {}
  }

  lemma {:induction false} RangeSize(lo: nat, hi: nat)
    requires lo <= hi
    ensures |Range(lo, hi)| == hi - lo
    decreases hi - lo
  {
    if lo < hi {
      RangeSize(lo + 1, hi);
      assert Range(lo, hi) == {lo} + Range(lo + 1, hi);
    } else {
      assert Range(lo, hi) == {};
    }
  }

  lemma RangesJoin(a: nat, b: nat, c: nat)
    requires a <= b <= c
    ensures Range(a, b) + Range(b, c) == Range(a, c)
  {
  }

  /** A distinct sequence listing a set has as many elements as the set. */
  lemma {:induction false} EnumerationSize<T>(xs: seq<T>, s: set<T>)
    requires Distinct(xs) && (set x | x in xs) == s
    ensures |s| == |xs|
    decreases |xs|
  {
    if xs != [] {
      var rest := xs[1..];
      assert Distinct(rest);
      assert (set x | x in rest) == s - {xs[0]};
      EnumerationSize(rest, s - {xs[0]});
    } else {
      assert s == {};
    }
  }

  // ---------------------------------------------------------------------------
  // Summary entries

  /** The entry written for an id that received number `n`. */
  function IdEntry(path: Path, model: string, id: string, n: nat): CarEntry {
    CarEntry(path, model, Some(id), n, Decimal(n) + DefaultKitSuffix)
  }

  /** The entry created for a kitName that received number `n`. */
  function KitOnlyEntry(path: Path, model: string, suffix: string, n: nat): CarEntry {
    CarEntry(path, model, None, n, Decimal(n) + suffix)
  }

  /**
   * The kitName loop's entry for number `n`: a new entry when `n` is not a
   * key yet, otherwise the existing entry with its kitName replaced.
   */
  function KitEntry(cars: map<nat, CarEntry>, path: Path, model: string, suffix: string, n: nat): CarEntry {
    if n in cars then cars[n].(kitName := Decimal(n) + suffix)
    else KitOnlyEntry(path, model, suffix, n)
  }

  /** Every key lies below the counter: the counter never hands out a number that is already a key. */
  predicate BelowCounter(cars: map<nat, CarEntry>, next: nat) {
    forall n :: n in cars ==> n < next
  }

  /**
   * The id loop's entries: the `j`-th id visited receives number `next + j`,
   * every earlier entry outside those numbers is kept.
   */
  function IdEntries(cars: map<nat, CarEntry>, ids: seq<string>, next: nat, path: Path, model: string): (r: map<nat, CarEntry>)
    ensures r.Keys == cars.Keys + Range(next, next + |ids|)
    ensures forall n :: n in cars ==> n in r
    ensures forall n :: n in cars && !(next <= n < next + |ids|) ==> r[n] == cars[n]
    ensures forall j :: 0 <= j < |ids| ==> next + j in r && r[next + j] == IdEntry(path, model, ids[j], next + j)
    decreases |ids|
  {
    if ids == [] then cars
    else IdEntries(cars[next := IdEntry(path, model, ids[0], next)], ids[1..], next + 1, path, model)
  }

  /**
   * The kitName loop's entries: the `j`-th kitName visited receives number
   * `next + j`; when the counter is above every key the membership test
   * always fails, so each of them is a fresh entry without an original id.
   */
  function KitEntries(cars: map<nat, CarEntry>, kits: seq<KitName>, next: nat, path: Path, model: string): (r: map<nat, CarEntry>)
    ensures r.Keys == cars.Keys + Range(next, next + |kits|)
    ensures forall n :: n in cars ==> n in r
    ensures forall n :: n in cars && !(next <= n < next + |kits|) ==> r[n] == cars[n]
    ensures forall n :: next <= n < next + |kits| ==> n in r
    ensures BelowCounter(cars, next) ==>
              forall j :: 0 <= j < |kits| ==> r[next + j] == KitOnlyEntry(path, model, kits[j].suffix, next + j)
    decreases |kits|
  {
    if kits == [] then cars
    else KitEntries(cars[next := KitEntry(cars, path, model, kits[0].suffix, next)], kits[1..], next + 1, path, model)
  }

  // ---------------------------------------------------------------------------
  // Rewriting one file's text

  /** The id loop's text: each id in turn is replaced everywhere by its new number. */
  function RewriteIds(content: string, ids: seq<string>, next: nat): string
    requires forall j :: 0 <= j < |ids| ==> IsNumeral(ids[j])
    decreases |ids|
  {
    if ids == [] then content
    else RewriteIds(ReplaceAll(content, IdPattern(ids[0]), IdPattern(Decimal(next))), ids[1..], next + 1)
  }

  /** The kitName loop's text: each kitName in turn rewrites the first element with its suffix. */
  function RewriteKits(content: string, kits: seq<KitName>, next: nat): string
    requires forall j :: 0 <= j < |kits| ==> IsKitSuffix(kits[j].suffix)
    decreases |kits|
  {
    if kits == [] then content
    else
      var suffix := kits[0].suffix;
      RewriteKits(ReplaceFirstKit(content, suffix, KitForm(Decimal(next), suffix)), kits[1..], next + 1)
  }

  /** A file's text after both loops, with the counter at `next` when the file is reached. */
  function RewriteFile(content: string, o: FileOrder, next: nat): string
    requires WellFormedOrder(o)
  {
    RewriteKits(RewriteIds(content, o.ids, next), o.kits, next + |o.ids|)
  }

  // ---------------------------------------------------------------------------
  // One carcols file

  /** The program's state between files: the counter, the files on disk and the summary's entries. */
  datatype State = State(next: nat, files: map<Path, string>, cars: map<nat, CarEntry>)

  /** Opening a file that does not exist stops the run; files rewritten before stay rewritten. */
  datatype Crash = MissingFile(path: Path, files: map<Path, string>)

  /**
   * The vehicles file a carcols file is paired with: the lookup's answer,
   * unless it is the empty path, which the `if` treats as false.
   */
  function PairedVehicles(vehicles: seq<Path>, path: Path): (r: Option<Path>)
    ensures r.Some? <==> FindVehicles(vehicles, Dirname(path)).Some? && FindVehicles(vehicles, Dirname(path)).value != ""
    ensures r.Some? ==> r.value == FindVehicles(vehicles, Dirname(path)).value && r.value in vehicles
  {
    match FindVehicles(vehicles, Dirname(path))
    case Some(v) => if v == "" then None else Some(v)
    case None => None
  }

  /** Both files the step for `path` opens are present. */
  predicate Readable(present: set<Path>, vehicles: seq<Path>, path: Path) {
    && path in present
    && (PairedVehicles(vehicles, path).Some? ==> PairedVehicles(vehicles, path).value in present)
  }

  /**
   * The model name recorded for a carcols file: the first model name of the
   * paired vehicles file, or "Unknown" when the lookup finds no file (or
   * finds the empty path, which Python treats as false).
   */
  function ModelNameFor(files: map<Path, string>, vehicles: seq<Path>, path: Path): (r: Result<string, Crash>)
    ensures (forall k :: 0 <= k < |vehicles| ==> !StartsWith(vehicles[k], Dirname(path))) ==> r == Success(UnknownModel)
    ensures r.Success? && r.value != UnknownModel ==>
              exists k :: 0 <= k < |vehicles| && StartsWith(vehicles[k], Dirname(path))
                          && (forall k' :: 0 <= k' < k ==> !StartsWith(vehicles[k'], Dirname(path)))
                          && vehicles[k] in files && r.value == GetModelName(files[vehicles[k]])
    ensures r.Failure? <==> PairedVehicles(vehicles, path).Some? && PairedVehicles(vehicles, path).value !in files
    ensures r.Success? && PairedVehicles(vehicles, path).Some? ==> r.value == GetModelName(files[PairedVehicles(vehicles, path).value])
    ensures r.Success? && PairedVehicles(vehicles, path).None? ==> r.value == UnknownModel
    ensures r.Failure? ==> r.error == MissingFile(PairedVehicles(vehicles, path).value, files)
  {
    match PairedVehicles(vehicles, path)
    case None => Success(UnknownModel)
    case Some(v) =>
      if v in files then Success(GetModelName(files[v])) else Failure(MissingFile(v, files))
  }

  /**
   * The entries one file adds to the summary: its ids first, from `next`
   * on, then its kitNames, numbered after the ids.
   */
  function FileEntries(cars: map<nat, CarEntry>, o: FileOrder, next: nat, path: Path, model: string): (r: map<nat, CarEntry>)
    ensures r.Keys == cars.Keys + Range(next, next + |o.ids| + |o.kits|)
    ensures forall n :: n in cars && n < next ==> r[n] == cars[n]
  {
    KitEntries(IdEntries(cars, o.ids, next, path, model), o.kits, next + |o.ids|, path, model)
  }

  /** The ids' entries are numbered up to `next + |ids|`, so the counter stays above every key. */
  lemma IdEntriesBelowCounter(cars: map<nat, CarEntry>, ids: seq<string>, next: nat, path: Path, model: string)
    requires BelowCounter(cars, next)
    ensures BelowCounter(IdEntries(cars, ids, next, path, model), next + |ids|)
  {
    var r := IdEntries(cars, ids, next, path, model);
    forall n | n in r ensures n < next + |ids| {
      assert n in cars.Keys || n in Range(next, next + |ids|);
    }
  }

  /** After a file's step the counter is again above every key. */
  lemma FileEntriesBelowCounter(cars: map<nat, CarEntry>, o: FileOrder, next: nat, path: Path, model: string)
    requires BelowCounter(cars, next)
    ensures BelowCounter(FileEntries(cars, o, next, path, model), next + |o.ids| + |o.kits|)
  {
    var r := FileEntries(cars, o, next, path, model);
    forall n | n in r ensures n < next + |o.ids| + |o.kits| {
      assert n in cars.Keys || n in Range(next, next + |o.ids| + |o.kits|);
    }
  }

  /** A file's `j`-th id gets `next + j`, with its original id and the default kitName. */
  lemma FileEntriesIdAt(cars: map<nat, CarEntry>, o: FileOrder, next: nat, path: Path, model: string, j: nat)
    requires j < |o.ids|
    ensures next + j in FileEntries(cars, o, next, path, model)
    ensures FileEntries(cars, o, next, path, model)[next + j] == IdEntry(path, model, o.ids[j], next + j)
  {
    var mid := next + |o.ids|;
    var idCars := IdEntries(cars, o.ids, next, path, model);
    assert next + j in idCars && idCars[next + j] == IdEntry(path, model, o.ids[j], next + j);
    assert !(mid <= next + j < mid + |o.kits|);
  }

  /**
   * When the counter is above every key, a file's `j`-th kitName gets the
   * `j`-th number after all its ids, in a new entry without an original id.
   */
  lemma FileEntriesKitAt(cars: map<nat, CarEntry>, o: FileOrder, next: nat, path: Path, model: string, j: nat)
    requires BelowCounter(cars, next)
    requires j < |o.kits|
    ensures next + |o.ids| + j in FileEntries(cars, o, next, path, model)
    ensures FileEntries(cars, o, next, path, model)[next + |o.ids| + j]
            == KitOnlyEntry(path, model, o.kits[j].suffix, next + |o.ids| + j)
  {
    var mid := next + |o.ids|;
    IdEntriesBelowCounter(cars, o.ids, next, path, model);
    assert mid <= mid + j < mid + |o.kits|;
  }

  /**
   * One iteration of the outer loop: pair the file with a vehicles file,
   * read it, renumber its ids and then its kitNames, write it back.
   */
  function ProcessFile(st: State, path: Path, vehicles: seq<Path>, o: FileOrder): (r: Result<State, Crash>)
    requires WellFormedOrder(o)
    ensures r.Success? <==> Readable(st.files.Keys, vehicles, path)
    ensures r.Failure? ==> r.error.files == st.files
    ensures r.Failure? ==>
              r.error.path == (if PairedVehicles(vehicles, path).Some? && PairedVehicles(vehicles, path).value !in st.files
                               then PairedVehicles(vehicles, path).value else path)
    ensures r.Success? ==> r.value.next == st.next + |o.ids| + |o.kits|
    ensures r.Success? ==> r.value.files == st.files[path := RewriteFile(st.files[path], o, st.next)]
    ensures r.Success? ==> r.value.cars == FileEntries(st.cars, o, st.next, path, ModelNameFor(st.files, vehicles, path).value)
  {
    match ModelNameFor(st.files, vehicles, path)
    case Failure(e) => Failure(e)
    case Success(model) =>
      if path !in st.files then Failure(MissingFile(path, st.files))
      else
        Success(State(st.next + |o.ids| + |o.kits|, st.files[path := RewriteFile(st.files[path], o, st.next)],
                      FileEntries(st.cars, o, st.next, path, model)))
  }

  // ---------------------------------------------------------------------------
  // The whole run

  /** How many numbers the files hand out: one per id and one per kitName visited. */
  function Allocations(orders: seq<FileOrder>): nat
    decreases |orders|
  {
    if orders == [] then 0 else |orders[0].ids| + |orders[0].kits| + Allocations(orders[1..])
  }

  lemma {:induction false} AllocationsSplit(a: seq<FileOrder>, b: seq<FileOrder>)
    ensures Allocations(a + b) == Allocations(a) + Allocations(b)
    decreases |a|
  {
    if a != [] {
      assert (a + b)[1..] == a[1..] + b;
      AllocationsSplit(a[1..], b);
    } else {
      assert a + b == b;
    }
  }

  predicate AllWellFormed(orders: seq<FileOrder>) {
    forall k :: 0 <= k < |orders| ==> WellFormedOrder(orders[k])
  }

  /** The outer loop over the carcols files, in list order, carrying the counter from file to file. */
  function Run(st: State, carcols: seq<Path>, vehicles: seq<Path>, orders: seq<FileOrder>): (r: Result<State, Crash>)
    requires |orders| == |carcols| && AllWellFormed(orders)
    ensures r.Success? ==> r.value.next == st.next + Allocations(orders)
    ensures r.Success? ==> r.value.cars.Keys == st.cars.Keys + Range(st.next, r.value.next)
    decreases |carcols|
  {
    if carcols == [] then Success(st)
    else
      match ProcessFile(st, carcols[0], vehicles, orders[0])
      case Failure(e) => Failure(e)
      case Success(st') =>
        var r := Run(st', carcols[1..], vehicles, orders[1..]);
        assert r.Success? ==> r.value.cars.Keys == st.cars.Keys + Range(st.next, r.value.next) by {
          if r.Success? {
            RangesJoin(st.next, st'.next, r.value.next);
          }
        }
        r
  }

  /** The run stops exactly when some carcols file, or the vehicles file paired with it, does not exist. */
  lemma {:induction false} RunSucceedsIffReadable(st: State, carcols: seq<Path>, vehicles: seq<Path>, orders: seq<FileOrder>)
    requires |orders| == |carcols| && AllWellFormed(orders)
    ensures Run(st, carcols, vehicles, orders).Success?
            <==> forall k :: 0 <= k < |carcols| ==> Readable(st.files.Keys, vehicles, carcols[k])
    decreases |carcols|
  {
    if carcols != [] {
      var present := st.files.Keys;
      var step := ProcessFile(st, carcols[0], vehicles, orders[0]);
      if step.Failure? {
        assert !Readable(present, vehicles, carcols[0]);
        assert Run(st, carcols, vehicles, orders).Failure?;
      } else {
        var st' := step.value;
        assert st'.files.Keys == present;
        assert Run(st, carcols, vehicles, orders) == Run(st', carcols[1..], vehicles, orders[1..]);
        RunSucceedsIffReadable(st', carcols[1..], vehicles, orders[1..]);
        assert Readable(present, vehicles, carcols[0]);
        assert (forall k :: 0 <= k < |carcols| ==> Readable(present, vehicles, carcols[k]))
               <==> (forall k :: 0 <= k < |carcols[1..]| ==> Readable(present, vehicles, carcols[1..][k])) by {
          assert forall k :: 1 <= k < |carcols| ==> carcols[1..][k - 1] == carcols[k];
        }
      }
    }
  }

  /**
   * A successful run writes only carcols files, creates no file, and keeps
   * every summary entry numbered below the starting counter.
   */
  lemma {:induction false} RunFrame(st: State, carcols: seq<Path>, vehicles: seq<Path>, orders: seq<FileOrder>)
    requires |orders| == |carcols| && AllWellFormed(orders)
    requires Run(st, carcols, vehicles, orders).Success?
    ensures var r := Run(st, carcols, vehicles, orders).value;
            && r.files.Keys == st.files.Keys
            && (forall p :: p in st.files && p !in carcols ==> r.files[p] == st.files[p])
            && (forall n :: n in st.cars && n < st.next ==> r.cars[n] == st.cars[n])
    decreases |carcols|
  {
    if carcols != [] {
      var st' := ProcessFile(st, carcols[0], vehicles, orders[0]).value;
      RunFrame(st', carcols[1..], vehicles, orders[1..]);
      forall p | p in st.files && p !in carcols ensures p !in carcols[1..] {
      }
    }
  }

  /** The summary the program writes: the number of entries and the entries by number. */
  datatype Summary = Summary(count: nat, cars: map<nat, CarEntry>)

  /** The rewritten files and the summary. */
  datatype Outcome = Outcome(files: map<Path, string>, summary: Summary)

  /**
   * `rebuild_car_mod_kit_ids`: the counter starts at 2000 and the summary
   * starts empty. It counts exactly the numbers handed out, which are the
   * consecutive numbers from 2000 on.
   */
  function Rebuild(carcols: seq<Path>, vehicles: seq<Path>, files: map<Path, string>, orders: seq<FileOrder>): (r: Result<Outcome, Crash>)
    requires |orders| == |carcols| && AllWellFormed(orders)
    ensures r.Success? <==> forall k :: 0 <= k < |carcols| ==> Readable(files.Keys, vehicles, carcols[k])
    ensures r.Success? ==> r.value.summary.count == |r.value.summary.cars| == Allocations(orders)
    ensures r.Success? ==> r.value.summary.cars.Keys == Range(FirstNewId, FirstNewId + Allocations(orders))
    ensures r.Success? ==> r.value.files.Keys == files.Keys
    ensures r.Success? ==> forall p :: p in files && p !in carcols ==> r.value.files[p] == files[p]
  {
    RunSucceedsIffReadable(State(FirstNewId, files, map[]), carcols, vehicles, orders);
    match Run(State(FirstNewId, files, map[]), carcols, vehicles, orders)
    case Failure(e) => Failure(e)
    case Success(st) =>
      assert st.next == FirstNewId + Allocations(orders);
      assert st.cars.Keys == Range(FirstNewId, st.next) by {
        assert st.cars.Keys == {} + Range(FirstNewId, st.next);
      }
      RangeSize(FirstNewId, st.next);
      RunFrame(State(FirstNewId, files, map[]), carcols, vehicles, orders);
      Success(Outcome(st.files, Summary(|st.cars|, st.cars)))
  }

  // ---------------------------------------------------------------------------
  // Where each file's numbers go

  /** The number the counter holds when the run reaches the `k`-th carcols file. */
  function CounterAt(start: nat, orders: seq<FileOrder>, k: nat): nat
    requires k <= |orders|
  {
    start + Allocations(orders[..k])
  }

  lemma CounterAtNext(orders: seq<FileOrder>, k: nat)
    requires 0 < k <= |orders|
    ensures Allocations(orders[..k]) == |orders[0].ids| + |orders[0].kits| + Allocations(orders[1..][..k - 1])
  {
    assert orders[..k][1..] == orders[1..][..k - 1];
  }

  /** The `j`-th id of the file at `path` is the entry numbered `at + j`, with the file's model name and the default kitName. */
  ghost predicate IdPlaced(cars: map<nat, CarEntry>, path: Path, model: string, o: FileOrder, at: nat, j: nat)
    requires j < |o.ids|
  {
    at + j in cars && cars[at + j] == IdEntry(path, model, o.ids[j], at + j)
  }

  /** The `j`-th kitName of the file at `path` is the entry numbered after all its ids, with the file's model name and no original id. */
  ghost predicate KitPlaced(cars: map<nat, CarEntry>, path: Path, model: string, o: FileOrder, at: nat, j: nat)
    requires j < |o.kits|
  {
    var n := at + |o.ids| + j;
    n in cars && cars[n] == KitOnlyEntry(path, model, o.kits[j].suffix, n)
  }

  /** The entries of the file at `path`, visited in order `o`, sit at `at` onwards: ids first, then kitNames. */
  ghost predicate Placed(cars: map<nat, CarEntry>, path: Path, model: string, o: FileOrder, at: nat) {
    && (forall j: nat :: j < |o.ids| ==> IdPlaced(cars, path, model, o, at, j))
    && (forall j: nat :: j < |o.kits| ==> KitPlaced(cars, path, model, o, at, j))
  }

  lemma FileEntriesPlaced(cars: map<nat, CarEntry>, o: FileOrder, next: nat, path: Path, model: string)
    requires BelowCounter(cars, next)
    ensures Placed(FileEntries(cars, o, next, path, model), path, model, o, next)
  {
    var r := FileEntries(cars, o, next, path, model);
    forall j: nat | j < |o.ids| ensures IdPlaced(r, path, model, o, next, j) {
      FileEntriesIdAt(cars, o, next, path, model, j);
    }
    forall j: nat | j < |o.kits| ensures KitPlaced(r, path, model, o, next, j) {
      FileEntriesKitAt(cars, o, next, path, model, j);
    }
  }

  /** Entries that a later step leaves alone stay placed. */
  lemma PlacedKept(c1: map<nat, CarEntry>, c2: map<nat, CarEntry>, path: Path, model: string, o: FileOrder, at: nat, bound: nat)
    requires Placed(c1, path, model, o, at) && at + |o.ids| + |o.kits| <= bound
    requires c1.Keys <= c2.Keys && forall n :: n in c1 && n < bound ==> c2[n] == c1[n]
    ensures Placed(c2, path, model, o, at)
  {
    forall j: nat | j < |o.ids| ensures IdPlaced(c2, path, model, o, at, j) {
      assert IdPlaced(c1, path, model, o, at, j);
      assert c2[at + j] == c1[at + j];
    }
    forall j: nat | j < |o.kits| ensures KitPlaced(c2, path, model, o, at, j) {
      assert KitPlaced(c1, path, model, o, at, j);
      assert c2[at + |o.ids| + j] == c1[at + |o.ids| + j];
    }
  }

  lemma SeparateTail(carcols: seq<Path>, vehicles: seq<Path>)
    requires carcols != [] && Separate(carcols, vehicles)
    ensures carcols[0] !in vehicles && Separate(carcols[1..], vehicles)
  {
    assert forall j :: 0 <= j < |carcols[1..]| ==> carcols[1..][j] == carcols[j + 1];
  }

  /** Writing a file that is not a vehicles path leaves every model-name lookup as it was. */
  lemma ModelNameForUpdate(files: map<Path, string>, vehicles: seq<Path>, path: Path, q: Path, t: string)
    requires q !in vehicles
    ensures ModelNameFor(files[q := t], vehicles, path).Success? == ModelNameFor(files, vehicles, path).Success?
    ensures ModelNameFor(files, vehicles, path).Success? ==>
              ModelNameFor(files[q := t], vehicles, path).value == ModelNameFor(files, vehicles, path).value
  {
  }

  /**
   * In a successful run the `k`-th file's entries start at the counter's
   * value on reaching it, and each records the model name looked up for
   * that file among the vehicles files as they were before the run.
   */
  lemma {:induction false} RunPlacesEntries(st: State, carcols: seq<Path>, vehicles: seq<Path>, orders: seq<FileOrder>, k: nat)
    requires |orders| == |carcols| && AllWellFormed(orders) && BelowCounter(st.cars, st.next)
    requires Separate(carcols, vehicles)
    requires Run(st, carcols, vehicles, orders).Success? && k < |carcols|
    ensures ModelNameFor(st.files, vehicles, carcols[k]).Success?
    ensures Placed(Run(st, carcols, vehicles, orders).value.cars, carcols[k], ModelNameFor(st.files, vehicles, carcols[k]).value,
                   orders[k], CounterAt(st.next, orders, k))
    decreases |carcols|
  {
    if k == 0 {
      RunPlacesFirst(st, carcols, vehicles, orders);
      assert orders[..0] == [];
    } else {
      var st' := ProcessFile(st, carcols[0], vehicles, orders[0]).value;
      var model := ModelNameFor(st.files, vehicles, carcols[0]).value;
      assert Run(st, carcols, vehicles, orders) == Run(st', carcols[1..], vehicles, orders[1..]);
      FileEntriesBelowCounter(st.cars, orders[0], st.next, carcols[0], model);
      CounterAtNext(orders, k);
      SeparateTail(carcols, vehicles);
      RunPlacesEntries(st', carcols[1..], vehicles, orders[1..], k - 1);
      assert carcols[1..][k - 1] == carcols[k] && orders[1..][k - 1] == orders[k];
      assert CounterAt(st'.next, orders[1..], k - 1) == CounterAt(st.next, orders, k);
      assert st'.files == st.files[carcols[0] := st'.files[carcols[0]]];
      ModelNameForUpdate(st.files, vehicles, carcols[k], carcols[0], st'.files[carcols[0]]);
    }
  }

  /** The first file's entries, placed by its own step, survive the rest of the run. */
  lemma RunPlacesFirst(st: State, carcols: seq<Path>, vehicles: seq<Path>, orders: seq<FileOrder>)
    requires |orders| == |carcols| && AllWellFormed(orders) && BelowCounter(st.cars, st.next)
    requires Run(st, carcols, vehicles, orders).Success? && carcols != []
    ensures ModelNameFor(st.files, vehicles, carcols[0]).Success?
    ensures Placed(Run(st, carcols, vehicles, orders).value.cars, carcols[0], ModelNameFor(st.files, vehicles, carcols[0]).value,
                   orders[0], st.next)
  {
    var st' := ProcessFile(st, carcols[0], vehicles, orders[0]).value;
    var model := ModelNameFor(st.files, vehicles, carcols[0]).value;
    var r := Run(st', carcols[1..], vehicles, orders[1..]);
    assert Run(st, carcols, vehicles, orders) == r;
    FileEntriesPlaced(st.cars, orders[0], st.next, carcols[0], model);
    RunFrame(st', carcols[1..], vehicles, orders[1..]);
    PlacedKept(st'.cars, r.value.cars, carcols[0], model, orders[0], st.next, st'.next);
  }

  /** The entries of a successful `Rebuild`, file by file, counting from 2000, each with its file's model name. */
  lemma RebuildPlacesEntries(carcols: seq<Path>, vehicles: seq<Path>, files: map<Path, string>, orders: seq<FileOrder>, k: nat)
    requires |orders| == |carcols| && AllWellFormed(orders) && Separate(carcols, vehicles)
    requires Rebuild(carcols, vehicles, files, orders).Success? && k < |carcols|
    ensures ModelNameFor(files, vehicles, carcols[k]).Success?
    ensures Placed(Rebuild(carcols, vehicles, files, orders).value.summary.cars, carcols[k], ModelNameFor(files, vehicles, carcols[k]).value,
                   orders[k], CounterAt(FirstNewId, orders, k))
  {
    var st := State(FirstNewId, files, map[]);
    RunPlacesEntries(st, carcols, vehicles, orders, k);
    assert Rebuild(carcols, vehicles, files, orders).value.summary.cars == Run(st, carcols, vehicles, orders).value.cars;
  }

  /**
   * The counter is never reset between files: the same raw id in two
   * different carcols files is recorded under two different numbers.
   */
  lemma RawIdReuseGetsFreshIds(carcols: seq<Path>, vehicles: seq<Path>, files: map<Path, string>, orders: seq<FileOrder>,
                               k1: nat, j1: nat, k2: nat, j2: nat)
    requires |orders| == |carcols| && AllWellFormed(orders) && Separate(carcols, vehicles)
    requires Rebuild(carcols, vehicles, files, orders).Success?
    requires k1 < k2 < |carcols| && j1 < |orders[k1].ids| && j2 < |orders[k2].ids|
    requires orders[k1].ids[j1] == orders[k2].ids[j2]
    ensures var cars := Rebuild(carcols, vehicles, files, orders).value.summary.cars;
            var n1, n2 := CounterAt(FirstNewId, orders, k1) + j1, CounterAt(FirstNewId, orders, k2) + j2;
            && n1 < n2 && n1 in cars && n2 in cars
            && cars[n1].originalId == cars[n2].originalId == Some(orders[k1].ids[j1])
  {
    var cars := Rebuild(carcols, vehicles, files, orders).value.summary.cars;
    RebuildPlacesEntries(carcols, vehicles, files, orders, k1);
    RebuildPlacesEntries(carcols, vehicles, files, orders, k2);
    assert IdPlaced(cars, carcols[k1], ModelNameFor(files, vehicles, carcols[k1]).value, orders[k1], CounterAt(FirstNewId, orders, k1), j1);
    assert IdPlaced(cars, carcols[k2], ModelNameFor(files, vehicles, carcols[k2]).value, orders[k2], CounterAt(FirstNewId, orders, k2), j2);
    CounterPassesFile(FirstNewId, orders, k1, k2);
  }

  /** A later file's numbers start after all of an earlier file's numbers. */
  lemma CounterPassesFile(start: nat, orders: seq<FileOrder>, k1: nat, k2: nat)
    requires k1 < k2 <= |orders|
    ensures CounterAt(start, orders, k1) + |orders[k1].ids| + |orders[k1].kits| <= CounterAt(start, orders, k2)
  {
    assert orders[..k2] == orders[..k1 + 1] + orders[k1 + 1..k2];
    assert orders[..k1 + 1] == orders[..k1] + [orders[k1]];
    AllocationsSplit(orders[..k1 + 1], orders[k1 + 1..k2]);
    AllocationsSplit(orders[..k1], [orders[k1]]);
    assert Allocations([orders[k1]]) == |orders[k1].ids| + |orders[k1].kits| by {
      assert [orders[k1]][1..] == [];
    }
  }

  // ---------------------------------------------------------------------------
  // What each file becomes

  /**
   * When no carcols path is listed twice, each file is rewritten once, from
   * the text it had before the run, with the counter's value on reaching it.
   */
  lemma {:induction false} RunRewritesEachFileOnce(st: State, carcols: seq<Path>, vehicles: seq<Path>, orders: seq<FileOrder>, k: nat)
    requires |orders| == |carcols| && AllWellFormed(orders) && Distinct(carcols)
    requires Run(st, carcols, vehicles, orders).Success? && k < |carcols|
    ensures carcols[k] in st.files && carcols[k] in Run(st, carcols, vehicles, orders).value.files
    ensures Run(st, carcols, vehicles, orders).value.files[carcols[k]]
            == RewriteFile(st.files[carcols[k]], orders[k], CounterAt(st.next, orders, k))
    decreases |carcols|
  {
    assert Readable(st.files.Keys, vehicles, carcols[k]) by {
      RunSucceedsIffReadable(st, carcols, vehicles, orders);
    }
    var st' := ProcessFile(st, carcols[0], vehicles, orders[0]).value;
    var r := Run(st', carcols[1..], vehicles, orders[1..]);
    assert Run(st, carcols, vehicles, orders) == r;
    assert Distinct(carcols[1..]);
    if k == 0 {
      RunFrame(st', carcols[1..], vehicles, orders[1..]);
      assert orders[..0] == [];
      assert carcols[0] !in carcols[1..];
    } else {
      CounterAtNext(orders, k);
      RunRewritesEachFileOnce(st', carcols[1..], vehicles, orders[1..], k - 1);
      assert carcols[1..][k - 1] == carcols[k] && orders[1..][k - 1] == orders[k];
      assert CounterAt(st'.next, orders[1..], k - 1) == CounterAt(st.next, orders, k);
      assert carcols[k] != carcols[0];
    }
  }

  /** The count `Rebuild` reports when each file's order lists its captures: one per distinct capture. */
  function CaptureCount(files: map<Path, string>, carcols: seq<Path>): nat
    decreases |carcols|
  {
    if carcols == [] then 0
    else
      var here := if carcols[0] in files then |ExtractIds(files[carcols[0]])| + |ExtractKits(files[carcols[0]])| else 0;
      here + CaptureCount(files, carcols[1..])
  }

  /**
   * Set semantics: when each file's order visits the distinct captures of
   * its text, the summary counts each distinct id and each distinct
   * (digits, suffix) kitName pair of a file once, however often it occurs.
   * With no carcols path listed twice, the text each file is read with is
   * its text before the run, which is what the hypothesis speaks about.
   */
  lemma CountIsDistinctCaptures(carcols: seq<Path>, vehicles: seq<Path>, files: map<Path, string>, orders: seq<FileOrder>)
    requires |orders| == |carcols| && AllWellFormed(orders)
    requires forall k :: 0 <= k < |carcols| && carcols[k] in files ==> Enumerates(orders[k], files[carcols[k]])
    requires Rebuild(carcols, vehicles, files, orders).Success?
    ensures Rebuild(carcols, vehicles, files, orders).value.summary.count == CaptureCount(files, carcols)
  {
    RunSucceedsIffReadable(State(FirstNewId, files, map[]), carcols, vehicles, orders);
    AllocationsAreCaptures(carcols, files, orders);
  }

  lemma {:induction false} AllocationsAreCaptures(carcols: seq<Path>, files: map<Path, string>, orders: seq<FileOrder>)
    requires |orders| == |carcols|
    requires forall k :: 0 <= k < |carcols| ==> carcols[k] in files && Enumerates(orders[k], files[carcols[k]])
    ensures Allocations(orders) == CaptureCount(files, carcols)
    decreases |carcols|
  {
    if carcols != [] {
      var o := orders[0];
      EnumerationSize(o.ids, ExtractIds(files[carcols[0]]));
      EnumerationSize(o.kits, ExtractKits(files[carcols[0]]));
      assert forall k :: 1 <= k < |carcols| ==> carcols[1..][k - 1] == carcols[k] && orders[1..][k - 1] == orders[k];
      AllocationsAreCaptures(carcols[1..], files, orders[1..]);
    }
  }

  // ---------------------------------------------------------------------------
  // What the two loops do to a file's text

  /** No id of the list is written as one of the numbers `next`, ..., `next + |ids| - 1`. */
  predicate NoCollision(ids: seq<string>, next: nat) {
    forall j, n: nat :: 0 <= j < |ids| && next <= n < next + |ids| ==> ids[j] != Decimal(n)
  }

  /** An id that is gone stays gone while the loop writes only numbers other than it. */
  lemma {:induction false} RewriteIdsKeepsAbsent(c: string, ids: seq<string>, next: nat, x: string)
    requires forall j :: 0 <= j < |ids| ==> IsNumeral(ids[j])
    requires IsNumeral(x) && !Occurs(c, IdPattern(x))
    requires forall n: nat :: next <= n < next + |ids| ==> x != Decimal(n)
    ensures !Occurs(RewriteIds(c, ids, next), IdPattern(x))
    decreases |ids|
  {
    if ids != [] {
      var c1 := ReplaceAll(c, IdPattern(ids[0]), IdPattern(Decimal(next)));
      IdReplaceKeepsAbsent(c, ids[0], Decimal(next), x);
      RewriteIdsKeepsAbsent(c1, ids[1..], next + 1, x);
    }
  }

  /**
   * When no original id coincides with a number the loop hands out, the id
   * loop leaves none of the original `<id value="..."` texts in the file.
   */
  lemma {:induction false} IdPassRemovesOriginals(c: string, ids: seq<string>, next: nat)
    requires forall j :: 0 <= j < |ids| ==> IsNumeral(ids[j])
    requires NoCollision(ids, next)
    ensures forall j :: 0 <= j < |ids| ==> !Occurs(RewriteIds(c, ids, next), IdPattern(ids[j]))
    decreases |ids|
  {
    if ids != [] {
      var c1 := ReplaceAll(c, IdPattern(ids[0]), IdPattern(Decimal(next)));
      var rest := ids[1..];
      assert NoCollision(rest, next + 1) by {
        forall j, n: nat | 0 <= j < |rest| && next + 1 <= n < next + 1 + |rest| ensures rest[j] != Decimal(n) {
          assert rest[j] == ids[j + 1];
        }
      }
      IdPassRemovesOriginals(c1, rest, next + 1);
      IdReplaceRemovesOld(c, ids[0], Decimal(next));
      RewriteIdsKeepsAbsent(c1, rest, next + 1, ids[0]);
      forall j | 0 < j < |ids| ensures !Occurs(RewriteIds(c, ids, next), IdPattern(ids[j])) {
        assert ids[j] == rest[j - 1];
      }
    }
  }

  /**
   * A collision: when the second id visited is the very number the first
   * one was given, the second replacement renumbers the first id's new text
   * as well, so the number recorded for the first id appears nowhere in the
   * file. Both texts end up carrying the second number.
   */
  lemma CollidingIdLosesItsNumber(c: string, first: string, next: nat, cars: map<nat, CarEntry>, path: Path, model: string)
    requires IsNumeral(first) && first != Decimal(next)
    ensures !Occurs(RewriteIds(c, [first, Decimal(next)], next), IdPattern(Decimal(next)))
    ensures var r := IdEntries(cars, [first, Decimal(next)], next, path, model);
            next in r && r[next].originalId == Some(first) && r[next].newId == next
  {
    var d := Decimal(next);
    var c1 := ReplaceAll(c, IdPattern(first), IdPattern(d));
    var c2 := ReplaceAll(c1, IdPattern(d), IdPattern(Decimal(next + 1)));
    assert [first, d][1..] == [d];
    assert [d][1..] == [];
    assert RewriteIds(c, [first, d], next) == RewriteIds(c1, [d], next + 1);
    assert RewriteIds(c1, [d], next + 1) == RewriteIds(c2, [], next + 2);
    if d == Decimal(next + 1) {
      DecimalInjective(next, next + 1);
    }
    IdReplaceRemovesOld(c1, d, Decimal(next + 1));
  }

  /**
   * Two kitNames with the same suffix: the replacement ignores the digits,
   * so the second rewrites the element the first just rewrote, and the
   * first one's number is lost from the text.
   */
  lemma KitPassSameSuffix(c: string, k1: KitName, k2: KitName, next: nat)
    requires IsKitSuffix(k1.suffix) && k1.suffix == k2.suffix
    ensures RewriteKits(c, [k1, k2], next) == ReplaceFirstKit(c, k1.suffix, KitForm(Decimal(next + 1), k1.suffix))
  {
    var suffix := k1.suffix;
    var c1 := ReplaceFirstKit(c, suffix, KitForm(Decimal(next), suffix));
    var c2 := ReplaceFirstKit(c1, suffix, KitForm(Decimal(next + 1), suffix));
    assert [k1, k2][1..] == [k2];
    assert [k2][1..] == [];
    assert RewriteKits(c, [k1, k2], next) == RewriteKits(c1, [k2], next + 1);
    assert RewriteKits(c1, [k2], next + 1) == RewriteKits(c2, [], next + 2);
    SameSuffixOverwrites(c, suffix, Decimal(next), Decimal(next + 1));
  }
}

=== FILE: rewrite.dfy ===
/**
 * The two textual substitutions of the renumbering: the replace-all of
 * `<id value="OLD"` (a literal pattern, since OLD is digits) and the
 * replace-first of `<kitName>\d+SUFFIX</kitName>`.
 */
module Rewrite {
  import opened Wrappers
  import opened Text
  import opened Extract

  // ---------------------------------------------------------------------------
  // Replace-all of a literal pattern

  /**
   * `re.sub` with a literal pattern: scan left to right, replace each match
   * and resume after it, so the replaced occurrences never overlap.
   */
  function ReplaceAll(s: string, pat: string, rep: string): string
    requires pat != ""
    decreases |s|
  {
    if s == "" then ""
    else if StartsWith(s, pat) then rep + ReplaceAll(s[|pat|..], pat, rep)
    else [s[0]] + ReplaceAll(s[1..], pat, rep)
  }

  /** Slicing past a leading element. */
  lemma SliceAfterHead<T>(x: seq<T>, y: seq<T>, i: nat, j: nat)
    requires i <= j <= |y|
    ensures (x + y)[|x| + i..|x| + j] == y[i..j]
  {
  }

  /** Text without the pattern comes through the replace-all unchanged. */
  lemma {:induction false} ReplaceAllWithoutMatch(s: string, pat: string, rep: string)
    requires pat != "" && !Occurs(s, pat)
    ensures ReplaceAll(s, pat, rep) == s
    decreases |s|
  {
    if s != "" {
      assert !OccursAt(s, pat, 0);
      assert !Occurs(s[1..], pat) by {
        forall i: nat ensures !OccursAt(s[1..], pat, i) {
          if i + |pat| <= |s| - 1 {
            SliceAfterHead([s[0]], s[1..], i, i + |pat|);
            assert s == [s[0]] + s[1..];
            assert !OccursAt(s, pat, i + 1);
          }
        }
      }
      ReplaceAllWithoutMatch(s[1..], pat, rep);
    }
  }

  /** The pieces joined with `sep` between consecutive ones. */
  function JoinWith(pieces: seq<string>, sep: string): string
    requires |pieces| >= 1
    decreases |pieces|
  {
    if |pieces| == 1 then pieces[0] else pieces[0] + sep + JoinWith(pieces[1..], sep)
  }

  lemma {:induction false} JoinWithHead(x: string, pieces: seq<string>, sep: string)
    requires |pieces| >= 1
    ensures JoinWith([x + pieces[0]] + pieces[1..], sep) == x + JoinWith(pieces, sep)
  {
    var joined := [x + pieces[0]] + pieces[1..];
    if |pieces| > 1 {
      assert joined[1..] == pieces[1..];
    }
  }

  lemma JoinWithStartsWithFirst(pieces: seq<string>, sep: string)
    requires |pieces| >= 1
    ensures StartsWith(JoinWith(pieces, sep), pieces[0])
  {
    if |pieces| > 1 {
      assert JoinWith(pieces, sep) == pieces[0] + (sep + JoinWith(pieces[1..], sep));
    }
  }

  /**
   * The text cut at the leftmost non-overlapping occurrences of `pat`
   * (Python's `str.split`): the pieces between the occurrences.
   */
  function Split(s: string, pat: string): (pieces: seq<string>)
    requires pat != ""
    ensures |pieces| >= 1
    decreases |s|
  {
    if s == "" then [""]
    else if StartsWith(s, pat) then [""] + Split(s[|pat|..], pat)
    else
      var rest := Split(s[1..], pat);
      [[s[0]] + rest[0]] + rest[1..]
  }

  /** Joining the pieces back with the pattern restores the text. */
  lemma {:induction false} SplitJoinsBack(s: string, pat: string)
    requires pat != ""
    ensures JoinWith(Split(s, pat), pat) == s
    decreases |s|
  {
    if s == "" {
    } else if StartsWith(s, pat) {
      SplitJoinsBack(s[|pat|..], pat);
      var rest := Split(s[|pat|..], pat);
      var pieces := [""] + rest;
      assert Split(s, pat) == pieces;
      assert pieces[0] == "" && pieces[1..] == rest;
      assert JoinWith(pieces, pat) == "" + pat + JoinWith(rest, pat);
      assert s == s[..|pat|] + s[|pat|..];
    } else {
      SplitJoinsBack(s[1..], pat);
      var rest := Split(s[1..], pat);
      assert Split(s, pat) == [[s[0]] + rest[0]] + rest[1..];
      JoinWithHead([s[0]], rest, pat);
      assert s == [s[0]] + s[1..];
    }
  }

  /** No piece contains the pattern: every occurrence is a cut. */
  lemma {:induction false} SplitPiecesFree(s: string, pat: string)
    requires pat != ""
    ensures forall k :: 0 <= k < |Split(s, pat)| ==> !Occurs(Split(s, pat)[k], pat)
    decreases |s|
  {
    assert forall i: nat :: !OccursAt("", pat, i);
    if s == "" {
    } else if StartsWith(s, pat) {
      SplitPiecesFree(s[|pat|..], pat);
      var rest := Split(s[|pat|..], pat);
      assert Split(s, pat) == [""] + rest;
    } else {
      SplitPiecesFree(s[1..], pat);
      SplitJoinsBack(s[1..], pat);
      var rest := Split(s[1..], pat);
      var first := [s[0]] + rest[0];
      JoinWithStartsWithFirst(rest, pat);
      assert first == s[..|first|];
      forall i: nat ensures !OccursAt(first, pat, i) {
        if i == 0 && |pat| <= |first| {
          assert first[0..|pat|] == s[..|pat|];
        } else if 0 < i && i + |pat| <= |first| {
          SliceAfterHead([s[0]], rest[0], i - 1, i - 1 + |pat|);
          assert !OccursAt(rest[0], pat, i - 1);
        }
      }
      assert Split(s, pat) == [first] + rest[1..];
    }
  }

  /**
   * The replace-all rewrites exactly the occurrences `Split` cuts at: the
   * text between them comes through unchanged and each occurrence becomes
   * `rep`.
   */
  lemma {:induction false} ReplaceAllIsSplitJoin(s: string, pat: string, rep: string)
    requires pat != ""
    ensures ReplaceAll(s, pat, rep) == JoinWith(Split(s, pat), rep)
    decreases |s|
  {
    if s == "" {
    } else if StartsWith(s, pat) {
      ReplaceAllIsSplitJoin(s[|pat|..], pat, rep);
      var rest := Split(s[|pat|..], pat);
      assert Split(s, pat) == [""] + rest;
      assert ([""] + rest)[1..] == rest;
    } else {
      ReplaceAllIsSplitJoin(s[1..], pat, rep);
      var rest := Split(s[1..], pat);
      JoinWithHead([s[0]], rest, rep);
    }
  }

  /** `x` starts with `m` and has no other `m`. */
  predicate LedBy(x: string, m: char) {
    x != "" && x[0] == m && forall k :: 1 <= k < |x| ==> x[k] != m
  }

  /** `a` and `b` disagree at some position both have. */
  ghost predicate Diverges(a: string, b: string) {
    exists k :: 0 <= k < |a| && k < |b| && a[k] != b[k]
  }

  /** The length of the longest prefix of `x` without `m`. */
  function UpToMarker(x: string, m: char): (n: nat)
    ensures n <= |x|
    ensures forall k :: 0 <= k < n ==> x[k] != m
    ensures n < |x| ==> x[n] == m
    decreases |x|
  {
    if x == "" || x[0] == m then 0 else 1 + UpToMarker(x[1..], m)
  }

  /** Up to the first `m` in its result, the replace-all leaves the text as it was. */
  lemma {:induction false} ReplaceAllKeepsTextBeforeMarker(t: string, pat: string, rep: string, m: char)
    requires LedBy(pat, m) && LedBy(rep, m)
    ensures var n := UpToMarker(ReplaceAll(t, pat, rep), m);
            n <= |t| && ReplaceAll(t, pat, rep)[..n] == t[..n]
    decreases |t|
  {
    var r := ReplaceAll(t, pat, rep);
    if t != "" && !StartsWith(t, pat) && t[0] != m {
      var r' := ReplaceAll(t[1..], pat, rep);
      assert r == [t[0]] + r';
      assert r[1..] == r';
      ReplaceAllKeepsTextBeforeMarker(t[1..], pat, rep, m);
      var n' := UpToMarker(r', m);
      assert r[..n' + 1] == [t[0]] + r'[..n'];
      assert t[..n' + 1] == [t[0]] + t[1..][..n'];
    }
  }

  /**
   * When the pattern and its replacement each start with a marker character
   * that appears nowhere else in them, and they differ, no occurrence of the
   * pattern is left after the replace-all: neither an old one nor one formed
   * by a replacement and its neighbours.
   */
  lemma {:induction false} ReplaceAllRemovesPattern(s: string, pat: string, rep: string, m: char)
    requires LedBy(pat, m) && LedBy(rep, m) && Diverges(pat, rep)
    ensures !Occurs(ReplaceAll(s, pat, rep), pat)
    decreases |s|
  {
    if s == "" {
      assert forall q: nat :: !OccursAt("", pat, q);
    } else if StartsWith(s, pat) {
      ReplaceAllRemovesPattern(s[|pat|..], pat, rep, m);
      NoPatternAfterReplacement(ReplaceAll(s[|pat|..], pat, rep), pat, rep, m);
    } else {
      ReplaceAllRemovesPattern(s[1..], pat, rep, m);
      NoPatternAfterKeptChar(s, pat, rep, pat, m);
    }
  }

  /**
   * Under the same marker discipline, a replace-all does not create an
   * occurrence of a text `a` that differs from the replacement: if `a` was
   * absent before, it is absent after.
   */
  lemma {:induction false} ReplaceAllKeepsAbsent(s: string, pat: string, rep: string, a: string, m: char)
    requires LedBy(pat, m) && LedBy(rep, m) && LedBy(a, m) && Diverges(a, rep)
    requires !Occurs(s, a)
    ensures !Occurs(ReplaceAll(s, pat, rep), a)
    decreases |s|
  {
    if s == "" {
      assert forall q: nat :: !OccursAt("", a, q);
    } else if StartsWith(s, pat) {
      AbsentFromSuffix(s, a, |pat|);
      ReplaceAllKeepsAbsent(s[|pat|..], pat, rep, a, m);
      NoPatternAfterReplacement(ReplaceAll(s[|pat|..], pat, rep), a, rep, m);
    } else {
      AbsentFromSuffix(s, a, 1);
      ReplaceAllKeepsAbsent(s[1..], pat, rep, a, m);
      assert !OccursAt(s, a, 0);
      NoPatternAfterKeptChar(s, pat, rep, a, m);
    }
  }

  /** A text absent from `s` is absent from every suffix of `s`. */
  lemma AbsentFromSuffix(s: string, a: string, d: nat)
    requires d <= |s| && !Occurs(s, a)
    ensures !Occurs(s[d..], a)
  {
    forall q: nat ensures !OccursAt(s[d..], a, q) {
      if q + |a| <= |s| - d {
        assert s[d..][q..q + |a|] == s[q + d..q + d + |a|];
        assert !OccursAt(s, a, q + d);
      }
    }
  }

  /** A replacement followed by pattern-free text holds no occurrence. */
  lemma NoPatternAfterReplacement(r': string, pat: string, rep: string, m: char)
    requires LedBy(pat, m) && LedBy(rep, m) && Diverges(pat, rep)
    requires !Occurs(r', pat)
    ensures !Occurs(rep + r', pat)
  {
    var r := rep + r';
    var k :| 0 <= k < |pat| && k < |rep| && pat[k] != rep[k];
    forall q: nat ensures !OccursAt(r, pat, q) {
      if q + |pat| <= |r| {
        if q == 0 {
          assert r[..|pat|][k] == rep[k];
        } else if q < |rep| {
          assert r[q..q + |pat|][0] == rep[q];
        } else {
          assert r[q..q + |pat|] == r'[q - |rep|..q - |rep| + |pat|];
          assert !OccursAt(r', pat, q - |rep|);
        }
      }
    }
  }

  /** A kept character in front of a replaced tail does not complete an occurrence of `a`. */
  lemma NoPatternAfterKeptChar(s: string, pat: string, rep: string, a: string, m: char)
    requires LedBy(pat, m) && LedBy(rep, m) && LedBy(a, m)
    requires s != "" && !StartsWith(s, pat) && !StartsWith(s, a)
    requires !Occurs(ReplaceAll(s[1..], pat, rep), a)
    ensures !Occurs(ReplaceAll(s, pat, rep), a)
  {
    var r' := ReplaceAll(s[1..], pat, rep);
    assert ReplaceAll(s, pat, rep) == [s[0]] + r';
    assert !OccursAt([s[0]] + r', a, 0) by {
      if |a| <= |[s[0]] + r'| && ([s[0]] + r')[..|a|] == a {
        PatternHeadThroughKeptChar(s, pat, rep, a, m);
      }
    }
    NoPatternPastHead(s[0], r', a);
  }

  /** An occurrence that starts after a one-character head lies in the tail. */
  lemma NoPatternPastHead(c: char, r': string, a: string)
    requires !Occurs(r', a)
    ensures forall q: nat :: 0 < q ==> !OccursAt([c] + r', a, q)
  {
    forall q: nat | 0 < q ensures !OccursAt([c] + r', a, q) {
      if q + |a| <= 1 + |r'| {
        SliceAfterHead([c], r', q - 1, q - 1 + |a|);
        assert !OccursAt(r', a, q - 1);
      }
    }
  }

  /** If the result starts with `a` after a kept character, so did the text. */
  lemma PatternHeadThroughKeptChar(s: string, pat: string, rep: string, a: string, m: char)
    requires LedBy(pat, m) && LedBy(rep, m) && LedBy(a, m) && s != ""
    requires var r := [s[0]] + ReplaceAll(s[1..], pat, rep); |a| <= |r| && r[..|a|] == a
    ensures StartsWith(s, a)
  {
    var t := s[1..];
    var r' := ReplaceAll(t, pat, rep);
    var r := [s[0]] + r';
    var n := |a| - 1;
    forall k | 0 <= k < n ensures r'[k] != m {
      assert r'[k] == r[..|a|][k + 1] == a[k + 1];
    }
    ReplaceAllKeepsTextBeforeMarker(t, pat, rep, m);
    assert n <= UpToMarker(r', m);
    assert r'[..n] == t[..n] by {
      var u := UpToMarker(r', m);
      assert r'[..n] == r'[..u][..n];
      assert t[..n] == t[..u][..n];
    }
    assert r[..|a|] == [s[0]] + r'[..n];
    assert s[..|a|] == [s[0]] + t[..n];
  }

  // ---------------------------------------------------------------------------
  // The id substitution

  /** The literal text `<id value="d"`, the id pattern specialised to one id. */
  function IdPattern(d: string): string {
    IdOpen + d + "\""
  }

  lemma IdPatternLedByAngle(d: string)
    requires AllDigits(d)
    ensures LedBy(IdPattern(d), '<')
  {
    var p := IdPattern(d);
    forall k | 1 <= k < |p| ensures p[k] != '<' {
      if k < |IdOpen| {
        assert p[k] == IdOpen[k];
      } else if k < |IdOpen| + |d| {
        assert p[k] == d[k - |IdOpen|];
      }
    }
  }

  /** Two different ids give patterns that differ inside both: the closing quote separates `12` from `123`. */
  lemma IdPatternsDiverge(d: string, d': string)
    requires IsNumeral(d) && IsNumeral(d') && d != d'
    ensures Diverges(IdPattern(d), IdPattern(d'))
  {
    var p, p' := IdPattern(d), IdPattern(d');
    var n := |IdOpen|;
    if |d| == |d'| {
      var k :| 0 <= k < |d| && d[k] != d'[k];
      assert p[n + k] == d[k] && p'[n + k] == d'[k];
    } else if |d| < |d'| {
      assert p[n + |d|] == '"' && p'[n + |d|] == d'[|d|];
    } else {
      assert p'[n + |d'|] == '"' && p[n + |d'|] == d[|d'|];
    }
  }

  /** After `<id value="OLD"` is replaced by `<id value="NEW"` with NEW different, OLD is gone from the text. */
  lemma IdReplaceRemovesOld(s: string, was: string, now: string)
    requires IsNumeral(was) && IsNumeral(now) && was != now
    ensures !Occurs(ReplaceAll(s, IdPattern(was), IdPattern(now)), IdPattern(was))
  {
    IdPatternLedByAngle(was);
    IdPatternLedByAngle(now);
    IdPatternsDiverge(was, now);
    ReplaceAllRemovesPattern(s, IdPattern(was), IdPattern(now), '<');
  }

  /**
   * Replacing one id does not bring back another id `x` that was gone,
   * as long as the new number is not `x` itself.
   */
  lemma IdReplaceKeepsAbsent(s: string, was: string, now: string, x: string)
    requires IsNumeral(was) && IsNumeral(now) && IsNumeral(x) && x != now
    requires !Occurs(s, IdPattern(x))
    ensures !Occurs(ReplaceAll(s, IdPattern(was), IdPattern(now)), IdPattern(x))
  {
    IdPatternLedByAngle(was);
    IdPatternLedByAngle(now);
    IdPatternLedByAngle(x);
    IdPatternsDiverge(x, now);
    ReplaceAllKeepsAbsent(s, IdPattern(was), IdPattern(now), IdPattern(x), '<');
  }

  /** A different id, longer or not, is left alone by the replacement of another id. */
  lemma OtherIdUntouched(was: string, other: string, rep: string)
    requires IsNumeral(was) && IsNumeral(other) && was != other
    ensures ReplaceAll(IdPattern(other), IdPattern(was), rep) == IdPattern(other)
  {
    var s, pat := IdPattern(other), IdPattern(was);
    IdPatternLedByAngle(was);
    IdPatternLedByAngle(other);
    IdPatternsDiverge(was, other);
    var k :| 0 <= k < |pat| && k < |s| && pat[k] != s[k];
    forall q: nat ensures !OccursAt(s, pat, q) {
      if q == 0 && |pat| <= |s| {
        assert s[..|pat|][k] == s[k];
      } else if 0 < q && q + |pat| <= |s| {
        assert s[q..q + |pat|][0] == s[q];
      }
    }
    ReplaceAllWithoutMatch(s, pat, rep);
  }

  // ---------------------------------------------------------------------------
  // The kitName substitution

  /** The leftmost kit slot for `suffix`: no slot for it starts earlier. */
  ghost predicate FirstKitSlot(s: string, i: nat, e: nat, suffix: string) {
    && KitSlotAt(s, i, e, suffix)
    && forall j: nat, e': nat :: j < i ==> !KitSlotAt(s, j, e', suffix)
  }

  /** A slot's digits end where the digit run ends, since the suffix starts with `_`. */
  lemma KitSlotEndIsRunEnd(s: string, i: nat, e: nat, suffix: string)
    requires KitSlotAt(s, i, e, suffix) && IsKitSuffix(suffix)
    ensures e == DigitRunEnd(s, i + |KitOpen|)
  {
    CharInOccurrence(s, suffix + KitClose, e, e);
    assert !IsDigit(s[e]);
  }

  /** The kit slot for `suffix` that starts at `i`, if any: where its digits end. */
  function KitSlotHere(s: string, suffix: string, i: nat): (r: Option<nat>)
    requires i <= |s| && IsKitSuffix(suffix)
    ensures r.Some? ==> KitSlotAt(s, i, r.value, suffix)
    ensures r.None? ==> forall e: nat :: !KitSlotAt(s, i, e, suffix)
  {
    if OccursAt(s, KitOpen, i) then
      var e := DigitRunEnd(s, i + |KitOpen|);
      if e > i + |KitOpen| && OccursAt(s, suffix + KitClose, e) then Some(e)
      else
        assert forall e': nat :: KitSlotAt(s, i, e', suffix) ==> e' == e by {
          forall e': nat | KitSlotAt(s, i, e', suffix) ensures e' == e {
            KitSlotEndIsRunEnd(s, i, e', suffix);
          }
        }
        None
    else None
  }

  /** The leftmost kit slot for `suffix` at or after `i`, as (start, end of digits). */
  function FindKitSlot(s: string, suffix: string, i: nat): (r: Option<(nat, nat)>)
    requires i <= |s| && IsKitSuffix(suffix)
    ensures r.Some? ==> i <= r.value.0 && KitSlotAt(s, r.value.0, r.value.1, suffix)
    ensures r.Some? ==> forall j: nat, e: nat :: i <= j < r.value.0 ==> !KitSlotAt(s, j, e, suffix)
    ensures r.None? ==> forall j: nat, e: nat :: i <= j ==> !KitSlotAt(s, j, e, suffix)
    decreases |s| - i
  {
    if i == |s| then None
    else
      match KitSlotHere(s, suffix, i)
      case Some(e) => Some((i, e))
      case None => FindKitSlot(s, suffix, i + 1)
  }

  /** The text written into a slot: `<kitName>` digits suffix `</kitName>`. */
  function KitForm(digits: string, suffix: string): string {
    KitOpen + digits + suffix + KitClose
  }

  /**
   * `re.sub(r'<kitName>\d+SUFFIX</kitName>', rep, content, 1)`: only the
   * leftmost element whose text after its digits is SUFFIX is replaced, and
   * the text around it is kept; without one the text is unchanged.
   */
  function ReplaceFirstKit(s: string, suffix: string, rep: string): (r: string)
    requires IsKitSuffix(suffix)
    ensures (forall j: nat, e: nat :: !KitSlotAt(s, j, e, suffix)) ==> r == s
    ensures forall i: nat, e: nat :: FirstKitSlot(s, i, e, suffix) ==>
              r == s[..i] + rep + s[KitSlotEnd(e, suffix)..]
  {
    match FindKitSlot(s, suffix, 0)
    case None => s
    case Some((i, e)) =>
      assert forall i': nat, e': nat :: FirstKitSlot(s, i', e', suffix) ==> i' == i && e' == e by {
        forall i': nat, e': nat | FirstKitSlot(s, i', e', suffix) ensures i' == i && e' == e {
          KitSlotEndIsRunEnd(s, i', e', suffix);
          KitSlotEndIsRunEnd(s, i, e, suffix);
        }
      }
      s[..i] + rep + s[KitSlotEnd(e, suffix)..]
  }

  /** A slot that lies inside a common prefix of two texts is a slot of both. */
  lemma KitSlotInCommonPrefix(s: string, t: string, n: nat, j: nat, e: nat, suffix: string)
    requires n <= |s| && n <= |t| && s[..n] == t[..n]
    requires KitSlotAt(t, j, e, suffix) && KitSlotEnd(e, suffix) <= n
    ensures KitSlotAt(s, j, e, suffix)
  {
    var tail := suffix + KitClose;
    SliceInCommonPrefix(s, t, n, j, j + |KitOpen|);
    SliceInCommonPrefix(s, t, n, e, e + |tail|);
    forall k | j + |KitOpen| <= k < e ensures IsDigit(s[k]) {
      assert s[k] == s[..n][k] == t[..n][k] == t[k];
    }
  }

  /** Two texts that agree on their first `n` characters agree on every slice within them. */
  lemma SliceInCommonPrefix(s: string, t: string, n: nat, a: nat, b: nat)
    requires n <= |s| && n <= |t| && s[..n] == t[..n] && a <= b <= n
    ensures s[a..b] == t[a..b]
  {
    forall k | a <= k < b ensures s[k] == t[k] {
      assert s[k] == s[..n][k] && t[k] == t[..n][k];
    }
  }

  /**
   * After the replacement the rewritten element is again the leftmost slot
   * for the same suffix: the regular expression ignores the digits, so the
   * new number still matches `\d+`.
   */
  lemma RewrittenSlotIsFirst(s: string, suffix: string, i: nat, e: nat, digits: string)
    requires IsKitSuffix(suffix) && IsNumeral(digits) && FirstKitSlot(s, i, e, suffix)
    ensures FirstKitSlot(ReplaceFirstKit(s, suffix, KitForm(digits, suffix)), i, i + |KitOpen| + |digits|, suffix)
  {
    var t := ReplaceFirstKit(s, suffix, KitForm(digits, suffix));
    SplicedSlot(s[..i], KitForm(digits, suffix), s[KitSlotEnd(e, suffix)..], digits, suffix);
    forall j: nat, e': nat | j < i ensures !KitSlotAt(t, j, e', suffix) {
      NoSlotBeforeSplice(s, t, i, j, e', suffix);
    }
  }

  /** Text spliced in as `KitForm(digits, suffix)` is a kit slot. */
  lemma SplicedSlot(pre: string, rep: string, post: string, digits: string, suffix: string)
    requires IsNumeral(digits) && rep == KitForm(digits, suffix)
    ensures KitSlotAt(pre + rep + post, |pre|, |pre| + |KitOpen| + |digits|, suffix)
    ensures (pre + rep + post)[|pre|] == '<' && (pre + rep + post)[|pre| + 1] == 'k'
  {
    var t := pre + rep + post;
    var i, e2 := |pre|, |pre| + |KitOpen| + |digits|;
    var tail := suffix + KitClose;
    assert rep == KitOpen + digits + tail;
    assert t[i..i + |KitOpen|] == KitOpen;
    assert t[e2..e2 + |tail|] == tail;
    forall k | i + |KitOpen| <= k < e2 ensures IsDigit(t[k]) {
      assert t[k] == rep[k - i] == digits[k - i - |KitOpen|];
    }
  }

  /**
   * No slot starts before `i` in a text that agrees with `s` before `i` and
   * has `<k` at `i`, when `s` has no slot before `i`.
   */
  lemma NoSlotBeforeSplice(s: string, t: string, i: nat, j: nat, e: nat, suffix: string)
    requires IsKitSuffix(suffix) && i <= |s| && i + 1 < |t| && s[..i] == t[..i]
    requires t[i] == '<' && t[i + 1] == 'k'
    requires forall j': nat, e': nat :: j' < i ==> !KitSlotAt(s, j', e', suffix)
    requires j < i
    ensures !KitSlotAt(t, j, e, suffix)
  {
    if KitSlotAt(t, j, e, suffix) {
      if KitSlotEnd(e, suffix) <= i {
        KitSlotInCommonPrefix(s, t, i, j, e, suffix);
      } else {
        AngleInsideKitSlot(t, j, e, suffix, i);
        CharInOccurrence(t, suffix + KitClose, e, i + 1);
      }
    }
  }

  /**
   * Two kitName captures with the same suffix: the second replacement finds
   * the element the first one just rewrote and overwrites it, so the result
   * is as if only the second had run and the other element keeps its number.
   */
  lemma SameSuffixOverwrites(s: string, suffix: string, d1: string, d2: string)
    requires IsKitSuffix(suffix) && IsNumeral(d1) && IsNumeral(d2)
    ensures ReplaceFirstKit(ReplaceFirstKit(s, suffix, KitForm(d1, suffix)), suffix, KitForm(d2, suffix))
            == ReplaceFirstKit(s, suffix, KitForm(d2, suffix))
  {
    match FindKitSlot(s, suffix, 0)
    case None =>
    case Some((i, e)) =>
      assert FirstKitSlot(s, i, e, suffix);
      var k1, k2 := KitForm(d1, suffix), KitForm(d2, suffix);
      var t := ReplaceFirstKit(s, suffix, k1);
      var end := KitSlotEnd(e, suffix);
      RewrittenSlotIsFirst(s, suffix, i, e, d1);
      var e1 := i + |KitOpen| + |d1|;
      assert t == s[..i] + k1 + s[end..];
      assert KitSlotEnd(e1, suffix) == i + |k1|;
      assert t[..i] == s[..i];
      assert t[i + |k1|..] == s[end..];
  }
}

=== FILE: text.dfy ===
/** Character classes, prefix and suffix tests, and decimal numerals over `string`. */
module Text {

  /** An ASCII digit: the model's reading of the regular-expression class `\d`. */
  predicate IsDigit(c: char) {
    '0' <= c <= '9'
  }

  /** An ASCII word character: the model's reading of the regular-expression class `\w`. */
  predicate IsWordChar(c: char) {
    IsDigit(c) || ('a' <= c <= 'z') || ('A' <= c <= 'Z') || c == '_'
  }

  predicate AllDigits(s: string) {
    forall k :: 0 <= k < |s| ==> IsDigit(s[k])
  }

  /** A non-empty run of digits: what `\d+` captures. */
  predicate IsNumeral(s: string) {
    |s| >= 1 && AllDigits(s)
  }

  predicate StartsWith(s: string, prefix: string) {
    |prefix| <= |s| && s[..|prefix|] == prefix
  }

  predicate EndsWith(s: string, suffix: string) {
    |suffix| <= |s| && s[|s| - |suffix|..] == suffix
  }

  /** No element appears twice. */
  predicate Distinct<T(==)>(xs: seq<T>) {
    forall i, j :: 0 <= i < j < |xs| ==> xs[i] != xs[j]
  }

  /** `pat` occurs in `s` starting at index `i`. */
  predicate OccursAt(s: string, pat: string, i: nat) {
    i + |pat| <= |s| && s[i..i + |pat|] == pat
  }

  /** `pat` occurs somewhere in `s`. */
  ghost predicate Occurs(s: string, pat: string) {
    exists i: nat :: OccursAt(s, pat, i)
  }

  lemma EndsWithTransitive(a: string, b: string, c: string)
    requires EndsWith(a, b) && EndsWith(b, c)
    ensures EndsWith(a, c)
  {
    assert a[|a| - |c|..] == a[|a| - |b|..][|b| - |c|..];
  }

  lemma StartsWithTransitive(a: string, b: string, c: string)
    requires StartsWith(a, b) && StartsWith(b, c)
    ensures StartsWith(a, c)
  {
    assert a[..|c|] == a[..|b|][..|c|];
  }

  /** An occurrence in the tail of `s` is an occurrence in `s`, one position further on. */
  lemma OccursInTail(s: string, pat: string)
    requires |s| >= 1 && Occurs(s[1..], pat)
    ensures Occurs(s, pat)
  {
    var i: nat :| OccursAt(s[1..], pat, i);
    assert s[i + 1..i + 1 + |pat|] == s[1..][i..i + |pat|];
    assert OccursAt(s, pat, i + 1);
  }

  function DigitChar(d: nat): (c: char)
    requires d < 10
    ensures IsDigit(c)
  {
    ('0' as int + d) as char
  }

  function DigitValue(c: char): (d: nat)
    requires IsDigit(c)
    ensures d < 10
    ensures DigitChar(d) == c
  {
    c as int - '0' as int
  }

  /**
   * The decimal numeral Python's `str(n)` (and an f-string) writes for a
   * non-negative integer: digits only, at least one, no leading zero.
   */
  function Decimal(n: nat): (r: string)
    ensures IsNumeral(r)
    ensures |r| == 1 || r[0] != '0'
    ensures n < 10 <==> |r| == 1
    decreases n
  {
    if n < 10 then [DigitChar(n)] else Decimal(n / 10) + [DigitChar(n % 10)]
  }

  /** The number a digit string denotes, most significant digit first. */
  function NumeralValue(s: string): nat
    requires AllDigits(s)
    decreases |s|
  {
    if |s| == 0 then 0 else NumeralValue(s[..|s| - 1]) * 10 + DigitValue(s[|s| - 1])
  }

  /** Reading back what `Decimal` wrote gives the number again. */
  lemma {:induction false} NumeralValueOfDecimal(n: nat)
    ensures NumeralValue(Decimal(n)) == n
    decreases n
  {
    var r := Decimal(n);
    if n >= 10 {
      assert r[..|r| - 1] == Decimal(n / 10);
      assert DigitValue(DigitChar(n % 10)) == n % 10;
      NumeralValueOfDecimal(n / 10);
    } else {
      assert DigitValue(DigitChar(n)) == n;
    }
  }

  /** Distinct numbers are written as distinct numerals. */
  lemma DecimalInjective(a: nat, b: nat)
    requires Decimal(a) == Decimal(b)
    ensures a == b
  {
    NumeralValueOfDecimal(a);
    NumeralValueOfDecimal(b);
  }
}

=== FILE: wrappers.dfy ===
/** Failure-carrying values shared by the other modules. */
module Wrappers {

  /** A value that may be absent: Python's `None` or a regular-expression search that found nothing. */
  datatype Option<+T> = None | Some(value: T)

  /** The outcome of a step that can stop the whole run. */
  datatype Result<+T, +E> = Success(value: T) | Failure(error: E)
}
